=== FILE: README.md ===
# Riversist daemon model

Riversist watches the traffic on one network interface and decides, for every IPv4 address
it sees, whether the address is malicious. It asks DNS-based reputation services about each
address:

- the Project Honey Pot http:BL service, with an access key;
- any number of generic DNS blocklists.

A blocklist query name is the address's octets in reverse order, prefixed to the service's
zone (section 2.1 of RFC 5782).

After the verdict, the daemon runs one of two configured shell command templates with the
address substituted. The legit template runs when no checker flagged the address; the
malicious one runs when one did, typically to add a firewall rule.

The daemon remembers three sets of addresses, each as a map from address to Unix time:

- its own addresses, which it never evaluates;
- the addresses being evaluated;
- the addresses already evaluated.

Two periodic prunes expire entries from the second and third maps.

This project models the `riversistd` package as pure functions:

| module | file | what it models |
|---|---|---|
| `Text`, `GoInt` | text.dfy, goint.dfy | the Go library behaviour the code relies on (see below) |
| `Addresses` | addresses.dfy | `net.IP.To4`, `net.IP.String`, and the octet reversal both checkers perform |
| `Answers` | answers.dfy | the answer format the checkers accept, and their findings |
| `HoneyPot` | honeypot.dfy | the http:BL checker |
| `Dnsbl` | dnsbl.dfy | the generic blocklist checker |
| `Checkers` | checkers.dfy | the checker interface, `initializeCheckers`, and the first-match checker loop |
| `Settings` | settings.dfy | `DefaultConfig` and the validation in `LoadConfig` |
| `Store` | store.dfy | the three maps, the membership checks, admission and completion in `processIp`, and `pruneIpMap` |
| `Dispatch` | dispatch.dfy | command selection and argv construction in `addIpToTable` |
| `Daemon` | daemon.dfy | `processIp`, `addIpToTable`, and the prune schedule `Main` starts |
| `Net` | net.dfy | `setOwnIps` and the per-packet step of `server` |

`Text` and `GoInt` model these Go library functions:

- `strings.Split`, `strings.Join` and `strings.Index` for a one-character separator;
- `strconv.Atoi` (a 64-bit `ParseInt`) and `strconv.ParseUint`, including their error values;
- Go's truncating `/` and 64-bit wrap-around.

DNS resolution is a parameter: a `Resolver` maps a query name to its list of answers, and an
empty list is a failed lookup. The clock is the parameter `now`. Each goroutine's work is one
atomic step, so `processIp` for a packet's source runs before the one for its destination.

`processIp` checks own addresses first, then already-evaluated addresses, then addresses
under evaluation (`riversistd/riversistd.go:98-120`); the model keeps that order.

Several contracts below are written in terms of plain definitions that have no row of their
own: `HoneyPot.QueryName` (`riversistd/ipChecker/projectHoneyPot.go:44`), `Dnsbl.QueryName`
(`riversistd/ipChecker/dnsbl.go:44`), `Dnsbl.AnswerScore` (`riversistd/ipChecker/dnsbl.go:57-58`),
`Dispatch.CommandTemplate` (`riversistd/riversistd.go:148-154`) and `Daemon.NewContext`
(`riversistd/riversistd.go:52-65`).

## Model

| member | source | states |
|---|---|---|
| Text.IndexOf | riversistd/ipChecker/projectHoneyPot.go:36-39 | the result is negative exactly when the character is absent; otherwise it is the first position of that character |
| Text.Split | riversistd/riversistd.go:162 | splitting yields one more piece than there are separators; no piece contains the separator; joining the pieces restores the string |
| Text.SplitJoin | riversistd/ipChecker/dnsbl.go:41-42 | splitting the join of separator-free pieces gives those pieces back |
| Text.JoinAppend | riversistd/ipChecker/dnsbl.go:42 | joining one more piece appends a separator and that piece |
| GoInt.Wrap64 | riversistd/ipChecker/projectHoneyPot.go:64 | the result is congruent to the input modulo 2^64 and lies in int64; an in-range input is unchanged |
| GoInt.TruncDiv | riversistd/ipChecker/projectHoneyPot.go:64 | the remainder is smaller in magnitude than the divisor, and a non-zero remainder has the dividend's sign (truncation toward zero) |
| GoInt.Decimal | riversistd/net.go:75 | an octet prints as a non-empty string of decimal digits denoting that value, with no leading zero: a text starting with `0` is exactly `0` |
| GoInt.ParseUint | riversistd/ipChecker/dnsbl.go:57 | the value never exceeds the maximum; a syntax error gives 0; a range error gives the maximum; an empty field or a leading non-digit is a syntax error; a text of digits reads as its value when that fits and as a range error otherwise; success means the text was all digits; a range error means some digit prefix already exceeds the maximum, and a syntax error means none does, so an overflow is reported before a later non-digit |
| GoInt.ParseUintDecimal | riversistd/ipChecker/dnsbl.go:57 | parsing the decimal text of any value up to the maximum gives that value back without error |
| GoInt.Atoi | riversistd/ipChecker/projectHoneyPot.go:59-60 | the value lies in int64; a syntax error gives 0; empty text, a leading character that is neither a digit nor a sign, or a sign not followed by a digit is a syntax error; a range error clamps to the minimum exactly when the text is negative and to the maximum otherwise; digits with an optional sign read as their (signed) value when it fits in int64 and clamp otherwise; success means the text was digits with an optional sign; a range error means some digit prefix already exceeds the bound for that sign, and past 2^64-1 when a non-digit follows; a syntax error means no digit prefix exceeds 2^64-1 |
| GoInt.AtoiDecimal | riversistd/ipChecker/projectHoneyPot.go:59-60 | Atoi inverts decimal printing for every non-negative int64 |
| GoInt.AtoiNegative | riversistd/ipChecker/projectHoneyPot.go:59-60 | a minus sign before a decimal reads as the negated value |
| Addresses.FormatIPv4 | riversistd/net.go:32-33 | the text of an address splits on dots into exactly its four decimal octets |
| Addresses.To4 | riversistd/net.go:71-74 | an IPv4 form exists exactly for 4-byte addresses and for IPv4-mapped 16-byte ones; it is their last four bytes |
| Addresses.ReversedOctets | riversistd/ipChecker/dnsbl.go:41-42 | the result splits into the first four parts of the address in reverse order |
| Addresses.ReversalInvolutive | riversistd/ipChecker/dnsbl.go:41-42 | reversing a four-part address twice gives it back |
| Addresses.ReversedFormat | riversistd/ipChecker/projectHoneyPot.go:41-42 | the reversal of a.b.c.d is the text of the address d.c.b.a |
| Answers.AnswerFields | riversistd/ipChecker/projectHoneyPot.go:51-55 | an answer is accepted exactly when it splits into four dot-fields whose first is "127"; the fields join back to the answer |
| HoneyPot.EffectiveStale | riversistd/ipChecker/projectHoneyPot.go:61-63 | an observed period of 0 becomes 1, and any other observed period is kept, so the division is never by zero |
| HoneyPot.Judge | riversistd/ipChecker/projectHoneyPot.go:45-78 | the cases are decided as follows: no answer gives no result; a malformed answer is invalid; otherwise the score is (period / observed) * threat in Go arithmetic; an observed period above the configured one is stale; anything else is malicious iff the score exceeds the maximum; every well-formed first answer is judged stale or scored and carried into the finding; a stale finding records the observed period (0 read as 1) |
| HoneyPot.IsIpMalicious | riversistd/ipChecker/projectHoneyPot.go:34-80 | an address without a dot is not looked up and not malicious; any other is judged on the answers to its http:BL query |
| HoneyPot.QueryNameOfAddress | riversistd/ipChecker/projectHoneyPot.go:41-44 | for a.b.c.d the query is key.d.c.b.a.dnsbl.httpbl.org |
| HoneyPot.Score | riversistd/ipChecker/projectHoneyPot.go:64 | the score is the exact (period / observed) * threat, with Go's truncating division, wrapped once to int64: wrapping the quotient first changes nothing, and a product within int64 is the score itself |
| HoneyPot.UnparsableStale | riversistd/ipChecker/projectHoneyPot.go:59-63 | an observed stale period that does not parse reads 0 and is replaced by 1 before the division |
| HoneyPot.ScoreNatural | riversistd/ipChecker/projectHoneyPot.go:64 | for natural inputs in the answer's range, the Go score equals the Euclidean (period / observed) * threat, with no wrap-around |
| HoneyPot.JudgeAddressAnswer | riversistd/ipChecker/projectHoneyPot.go:57-78 | for a configured period between 0 and 2^32-1 and a well-formed answer 127.s.t.k, the verdict is stale when s (0 read as 1) exceeds the period; otherwise it is scored (period / s) * t against the maximum |
| HoneyPot.DefaultScoringExamples | riversistd/ipChecker/projectHoneyPot.go:72-78 | with period 14 and maximum 25: 127.7.10.x scores 20 and is legit; 127.2.50.x scores 350 and is malicious; 127.20.x.y is stale |
| HoneyPot.StaleNeverMalicious | riversistd/ipChecker/projectHoneyPot.go:67-70 | a stale answer is never malicious, whatever its score |
| Dnsbl.GetName | riversistd/ipChecker/dnsbl.go:28-30 | the name is "Dnsbl " followed by the host |
| Dnsbl.Judge | riversistd/ipChecker/dnsbl.go:45-64 | no answer gives no result; a malformed answer is invalid; otherwise the score is the parsed fourth field and the verdict is malicious iff the score reaches the threshold; a blocklist answer is never stale; every well-formed first answer is scored and carried into the finding |
| Dnsbl.IsIpMalicious | riversistd/ipChecker/dnsbl.go:32-66 | an address without a dot is not looked up and not malicious; any other is judged on the answers to its blocklist query |
| Dnsbl.QueryNameOfAddress | riversistd/ipChecker/dnsbl.go:41-44 | for a.b.c.d the query is d.c.b.a followed by a dot and the host |
| Dnsbl.JudgeAddressAnswer | riversistd/ipChecker/dnsbl.go:57-64 | a well-formed answer 127.x.y.z scores z and is malicious iff z reaches the threshold |
| Dnsbl.ThresholdBoundary | riversistd/ipChecker/dnsbl.go:58 | the threshold is inclusive: with threshold 10, a score of 10 is malicious and a score of 9 is legit |
| Dnsbl.UnparsableScore | riversistd/ipChecker/dnsbl.go:57-58 | an unparsable fourth field scores 0 and is malicious iff the threshold is 0 |
| Dnsbl.ZeroThresholdFlagsEverything | riversistd/ipChecker/dnsbl.go:57-58 | with threshold 0 every well-formed answer is malicious |
| Checkers.NameNonEmpty | riversistd/riversistd.go:139-148 | every checker's name is non-empty, so the empty `dnsbl` value unambiguously means that no checker matched |
| Checkers.NamesDistinct | riversistd/ipChecker/projectHoneyPot.go:30-32 | the http:BL checker's name differs from every blocklist checker's |
| Checkers.UndottedNeverChecked | riversistd/ipChecker/dnsbl.go:36-39 | no checker looks up or flags an address without a dot |
| Checkers.InitializeCheckers | riversistd/riversistd.go:82-93 | the chain is the http:BL checker (only when enabled) followed by one blocklist checker per configured blocklist, in the order of the list parameter |
| Checkers.RunChain | riversistd/riversistd.go:139-146 | the run consults a prefix of the chain in order; it stops at the first match; it names the matching checker exactly when some checker of the chain matches; otherwise it consults the whole chain |
| Checkers.RunExtends | riversistd/riversistd.go:141-146 | a run of the rest of the chain behind a non-matching first checker is a run of the whole chain |
| Checkers.AnyMaliciousTail | riversistd/riversistd.go:141-146 | past a non-matching checker, some checker matches iff one of the rest does |
| Checkers.UndottedChainLegit | riversistd/riversistd.go:141-148 | an address without a dot is legit for every chain and causes no lookup |
| Settings.DefaultConfig | riversistd/config.go:44-53 | the defaults set a non-empty interface and enable http:BL, keeping the commands and the API key as they were |
| Settings.DefaultValues | riversistd/config.go:45-52 | the defaults are eth0, "tcp and ip", 86400, 1800, and http:BL enabled with period 14 and maximum 25 |
| Settings.ValidateConfig | riversistd/config.go:35-41 | a configuration passes iff its interface is named and an enabled http:BL checker has an API key; an empty interface is reported first |
| Settings.StartupConfig | riversistd/riversistd.go:52-57 | without a file the daemon runs with the defaults; with one, the parsed configuration is validated and any failure is fatal |
| Settings.DefaultsSkipValidation | riversistd/riversistd.go:54-57 | the defaults would fail validation for the missing API key, yet they are used unvalidated when no file is given |
| Settings.ApiKeyNeededOnlyWhenEnabled | riversistd/config.go:39-41 | with a named interface and no API key, validation passes iff http:BL is disabled |
| Store.Check | riversistd/riversistd.go:98-120 | an address is admitted iff it is in none of the three maps; an own address is skipped as own; an address that is evaluated and not own is skipped as evaluated |
| Store.Admit | riversistd/riversistd.go:122-124 | admission adds the address to the in-flight map with its start time and changes nothing else |
| Store.Complete | riversistd/riversistd.go:128-133 | completion records the address as evaluated at its start time and removes it from the in-flight map; every other entry is unchanged |
| Store.PruneCutoff | riversistd/riversistd.go:181 | without overflow the cutoff is now minus the threshold |
| Store.Kept | riversistd/riversistd.go:185-190 | an entry survives iff it is stamped at or after the cutoff, with its value unchanged |
| Store.PruneIpMap | riversistd/riversistd.go:181-191 | a prune keeps exactly the entries stamped at or after the cutoff, with unchanged values; the counter equals the number of removed entries |
| Store.PruneProcessing | riversistd/riversistd.go:59 | the in-flight prune changes only the in-flight map |
| Store.PruneProcessed | riversistd/riversistd.go:61 | the evaluated-map prune changes only the evaluated map |
| Store.KeptIdempotent | riversistd/riversistd.go:185-190 | a second prune with the same cutoff removes nothing more |
| Store.StuckAddressReadmitted | riversistd/riversistd.go:114-124 | an in-flight entry older than the cutoff is pruned, and the address is then admitted again |
| Dispatch.SprintfPercentSign | riversistd/riversistd.go:161 | `%%` prints one percent sign and consumes nothing, so the address is appended as an EXTRA argument |
| Dispatch.SprintfTwoVerbs | riversistd/riversistd.go:161 | of two `%s`/`%v` directives the first prints the address and the second prints `%!s(MISSING)` or `%!v(MISSING)` |
| Dispatch.SprintfSingleVerb | riversistd/riversistd.go:161 | in a template with one `%s` and no other directive, the address takes the place of the `%s` |
| Dispatch.Sprintf | riversistd/riversistd.go:161 | a template without a directive gets the address appended as an EXTRA argument |
| Dispatch.SprintfLiteral | riversistd/riversistd.go:161 | text without `%` is copied through unchanged |
| Dispatch.BuildAction | riversistd/riversistd.go:156-163 | an empty template runs nothing; otherwise argv is non-empty, has no word containing a space, and joins with spaces to the substituted template |
| Dispatch.ActionFor | riversistd/riversistd.go:148-163 | for the chosen template, nothing runs iff it is empty; otherwise argv is a non-empty list of space-free words that joins to the substituted template, that is, the template's split on single spaces |
| Dispatch.ActionForTypicalTemplate | riversistd/riversistd.go:161-163 | the template `program args... %s` runs `program` with its arguments followed by the address |
| Daemon.DefaultContextQueriesWithoutKey | riversistd/riversistd.go:52-65 | started without a configuration file, the chain is the http:BL checker alone with an empty key, so a dotted address a.b.c.d is looked up as `.d.c.b.a.dnsbl.httpbl.org` |
| Daemon.AddIpToTable | riversistd/riversistd.go:136-163 | the chain is run as `RunChain` specifies; the malicious template is used iff some checker matches, and the legit one otherwise; the action is empty iff that template is; otherwise argv is a non-empty list of space-free words joining to the substituted template |
| Daemon.Begin | riversistd/riversistd.go:98-124 | a known address leaves the store unchanged and is skipped; an unknown one is admitted |
| Daemon.ProcessIp | riversistd/riversistd.go:95-134 | a known address changes nothing and looks nothing up; an unknown one is evaluated, then recorded as evaluated at its start time, with the in-flight map as before |
| Daemon.FreshAddressLifecycle | riversistd/riversistd.go:122-133 | a fresh address is in flight with its start time; completion records that start time even if a prune has already removed the in-flight entry |
| Daemon.RetriggerIsNoOp | riversistd/riversistd.go:106-111 | a second `processIp` of the same address changes nothing and looks nothing up |
| Daemon.OwnAddressSkipped | riversistd/riversistd.go:98-103 | an own address is skipped without any change |
| Daemon.PruneTasks | riversistd/riversistd.go:59-62 | the in-flight prune always runs first, every 60 seconds with a 60-second threshold; the evaluated-map prune runs iff Auto_Expiry_Time is non-zero and runs every Auto_Expiry_Time seconds with Prune_Interval as its threshold (as written) |
| Daemon.PruneTasksExpireTooEarly | riversistd/riversistd.go:61 | with the defaults, the as-written evaluated-map prune drops an entry 1801 seconds old, which is younger than the 86400-second expiry time |
| Daemon.IntendedPruneTasks | riversistd/riversistd.go:59-62 | the corrected schedule runs the evaluated-map prune every Prune_Interval seconds with Auto_Expiry_Time as its threshold |
| Daemon.IntendedPruneHonoursExpiry | riversistd/riversistd.go:174-181 | the corrected prune keeps an evaluated entry iff it is at most Auto_Expiry_Time seconds old |
| Net.OwnKey | riversistd/net.go:70-74 | an interface address yields a key iff it is an IP network address with an IPv4 form; the key is the text of that form |
| Net.Flatten | riversistd/net.go:63-69 | the address list holds exactly the addresses of all the interfaces |
| Net.OwnIpMap | riversistd/net.go:69-78 | the map's keys are exactly the keys of the addresses, and every value is 1337 |
| Net.SetOwnIps | riversistd/net.go:47-79 | after the rebuild the own map holds exactly the IPv4 addresses of all interfaces, each mapped to 1337, and no earlier entry; the other maps are unchanged |
| Net.OwnAddressesIndexable | riversistd/net.go:75 | every own address has four dot-separated parts |
| Net.PacketTargets | riversistd/net.go:25-33 | a packet fails exactly when it has a network layer that is not IPv4 or a transport that is not TCP; a packet without a network layer yields no addresses; a non-IPv4 network layer or a non-TCP transport panics; otherwise it yields the source and then the destination, as text |
| Net.OnPacket | riversistd/net.go:21-37 | a packet panics iff its layers fail the type assertions; one without a network layer changes nothing; any other triggers two evaluations |
| Net.ProcessAll | riversistd/net.go:36-37 | one outcome per address, the first being that of processing the first address against the initial store; no addresses means no change |
| Net.PacketProcessesBothEnds | riversistd/net.go:32-37 | a TCP/IPv4 packet runs `processIp` for its source, then for its destination |
| Net.MaliciousSourceBlocked | riversistd/net.go:36 | an unknown source that some checker flags gets the malicious command with the source substituted, and ends up recorded as evaluated |
| Net.SameEndsEvaluatedOnce | riversistd/net.go:36-37 | when source and destination are the same address, the second trigger is skipped |

## Left out

- DNS resolution (`net.LookupHost`) is a foreign call; the answer list is the `Resolver` parameter. The `err.Error()` calls on the no-answer path assume a failed lookup reports an error.
- Running the command (`exec.Command`, `cmd.Run`) is I/O; the model produces the argv, and a failure to run is only logged.
- Goroutines, the `sync.RWMutex` locks, `time.NewTicker` timing and the race between check and admission are concurrency. Every operation is one atomic step with `now` as a parameter.
- The capture itself is I/O and is not modelled: opening the interface, the BPF filter and the packet source (`riversistd/net.go:11-23`). The per-packet step, including its panicking type assertions, is modelled.
- Interface enumeration and its fatal errors (`riversistd/net.go:48-51`, `64-67`) are I/O; the interfaces' addresses are a parameter.
- Logging (`riversistd/log.go`), signals (`riversistd/signalHandler.go`), the process name (`riversistd/processName.go`) and the entry shim `riversist.go` carry no decision logic.
- The `gcfg` parse in `LoadConfig` is a foreign library; the parse is a total function parameter of `Settings.StartupConfig`, so a file that fails to read or parse (fatal at `riversistd/config.go:31-33`) is not modelled, and only the validation failure is.
- `riversistd/ipChecker/ipChecker.go` only declares the interface; `Checkers.Checker` takes its shape.
- The older copies outside `riversistd` are not built into the daemon: `riversist/riversist.go`, `test/`, `projectHoneyPot/`, `config/` and `ipChecker/`.
- `Config.Dnsbl` (`riversistd/riversistd.go:90`) names a field the configuration type (`riversistd/config.go:16-26`) does not have, so the blocklist configurations are a separate list parameter. A `gcfg` named subsection is read into a map, and Go ranges over a map in no fixed order; the list's order stands for that arbitrary order. Whether some checker flags an address does not depend on it, but which blocklist `Checkers.RunChain` names, and which ones it consults, does.
- `Dispatch.Sprintf`: only templates whose every `%` starts `%%`, `%s` or `%v` are modelled. Other verbs, flags and widths of `fmt.Sprintf` are outside the model, and `ValidContext` requires both command templates to be of this form.
- `Daemon.ProcessIp`: an address that reaches the checkers must be `Indexable`, meaning it either has no dot or has at least four dot-separated parts. The code panics on a dotted address with fewer parts. Callers pass only `net.IP.String` texts, which always meet this condition.
- `HoneyPot.JudgeAddressAnswer`: states the verdict with Euclidean arithmetic only for a configured period between 0 and 2^32-1; for a negative period Go's truncating division differs from Euclidean division, and above that range the product may wrap. `HoneyPot.Judge` states the verdict for every period through `HoneyPot.Score`.
- `HoneyPot.ScoreNatural`: states the score without wrap-around only for a configured period within `uint32` and a byte-sized threat score. `HoneyPot.Score` models the wrap-around for all other values.
- The checkers' log messages, and the `%d`/`%v` formatting inside them, are not modelled.
- `pruneIpMap`'s `time.Second * time.Duration(interval)` can overflow for very large intervals; the model records only the interval in seconds.

## Findings

| source | as written | input that shows it | evidently intended | confidence | as-written member | corrected member |
|---|---|---|---|---|---|---|
| riversistd/riversistd.go:61 | `pruneIpMap(&processedIps, Auto_Expiry_Time, Prune_Interval, …)` against the signature `(ipMap, interval, threshold, name)` at line 174: the expiry time becomes the tick interval and the prune interval becomes the age threshold | the defaults 86400 and 1800: an address evaluated 1801 seconds ago is dropped at the next tick, although it should be kept for 86400 seconds | prune every `Prune_Interval` seconds, dropping entries older than `Auto_Expiry_Time` seconds | high; not executed | Daemon.PruneTasksExpireTooEarly | Daemon.IntendedPruneHonoursExpiry |

=== FILE: addresses.dfy ===
/** IPv4 addresses: Go's `net.IP` byte form, its dotted text form, and the reversed-octet
    form that DNS blocklists are queried with (section 2.1 of RFC 5782). */
module Addresses {
  import opened Wrappers
  import opened Text
  import opened GoInt

  type Byte = x: int | 0 <= x < 256

  /** A four-byte address, as `net.IP.To4` returns it. */
  type IPv4 = s: seq<Byte> | |s| == 4 witness [0, 0, 0, 0]

  /** The dot-separated decimal parts of an address in text form. */
  function OctetTexts(ip: IPv4): seq<string>
  {
    [Decimal(ip[0]), Decimal(ip[1]), Decimal(ip[2]), Decimal(ip[3])]
  }

  /** `net.IP.String` of a four-byte address. Splitting the text on dots gives back
      exactly the four decimal octets. */
  function FormatIPv4(ip: IPv4): (s: string)
    ensures Split(s, '.') == OctetTexts(ip)
    ensures '.' in s
  {
    var parts := OctetTexts(ip);
    assert forall i :: 0 <= i < 4 ==> '.' !in parts[i] by {
      forall i | 0 <= i < 4 ensures '.' !in parts[i] {
        assert AllDigits(parts[i]);
        assert !IsDigit('.');
      }
    }
    SplitJoin(parts, '.');
    var s := Join(parts, '.');
    assert s[|parts[0]|] == '.';
    s
  }

  /** `net.IP.To4`: a four-byte slice is already IPv4; a sixteen-byte slice is IPv4 when it
      is an IPv4-mapped IPv6 address (ten zero bytes, then two 0xff bytes); anything else
      has no IPv4 form. */
  function To4(ip: seq<Byte>): (r: Option<IPv4>)
    ensures |ip| == 4 ==> r == Some(ip)
    ensures r.Some? <==> |ip| == 4 || (|ip| == 16 && ip[..12] == [0, 0, 0, 0, 0, 0, 0, 0, 0, 0, 255, 255])
    ensures r.Some? ==> r.value == ip[|ip| - 4..]
  {
    if |ip| == 4 then Some(ip)
    else if |ip| == 16 && (forall i :: 0 <= i < 10 ==> ip[i] == 0) && ip[10] == 255 && ip[11] == 255 then
      Some(ip[12..16])
    else None
  }

  /** The checkers index the fourth dot-separated part of every address that contains a dot;
      an address with a dot but fewer than four parts makes that index panic. */
  predicate Indexable(ip: string)
  {
    '.' !in ip || |Split(ip, '.')| >= 4
  }

  /** The first four dot-separated parts of an address in reverse order, joined by dots. */
  function ReversedOctets(ip: string): (r: string)
    requires |Split(ip, '.')| >= 4
    ensures var p := Split(ip, '.'); Split(r, '.') == [p[3], p[2], p[1], p[0]]
  {
    var p := Split(ip, '.');
    SplitJoin([p[3], p[2], p[1], p[0]], '.');
    Join([p[3], p[2], p[1], p[0]], '.')
  }

  /** Reversing an address of exactly four parts twice gives the address back. */
  lemma ReversalInvolutive(ip: string)
    requires |Split(ip, '.')| == 4
    ensures |Split(ReversedOctets(ip), '.')| == 4
    ensures ReversedOctets(ReversedOctets(ip)) == ip
  {
    var p := Split(ip, '.');
    assert [p[0], p[1], p[2], p[3]] == p;
  }

  /** The reversed form of a.b.c.d is the text of the address d.c.b.a. */
  lemma ReversedFormat(ip: IPv4)
    ensures ReversedOctets(FormatIPv4(ip)) == FormatIPv4([ip[3], ip[2], ip[1], ip[0]])
  {
  }
}

=== FILE: answers.dfy ===
/** What a reputation checker concludes about one address, and the answer format both
    DNS blocklist checkers accept. */
module Answers {
  import opened Wrappers
  import opened Text

  /** The DNS resolver: the addresses a name resolves to; an empty list is a failed lookup. */
  type Resolver = string -> seq<string>

  /** The branch a checker's verdict came from, with what it logs there. */
  datatype Finding =
    | Unsupported                                                // no dotted form (IPv6): no lookup
    | NoResult                                                   // the lookup returned no address
    | InvalidReturn(answer: string)                              // the answer is not 127.x.y.z
    | Stale(score: int, stalePeriod: int, answer: string)        // listed too long ago to count
    | Scored(score: int, threshold: int, malicious: bool, answer: string)

  /** One checker's evaluation of one address: the name it looked up, if any, and its finding. */
  datatype Evaluation = Evaluation(query: Option<string>, finding: Finding)

  predicate Malicious(e: Evaluation)
  {
    e.finding.Scored? && e.finding.malicious
  }

  /** The four dot-separated fields of the first answer when it has the form 127.x.y.z. */
  function AnswerFields(answer: string): (r: Option<seq<string>>)
    ensures r.Some? <==> |Split(answer, '.')| == 4 && Split(answer, '.')[0] == "127"
    ensures r.Some? ==> |r.value| == 4 && Join(r.value, '.') == answer
  {
    var fields := Split(answer, '.');
    if |fields| != 4 || fields[0] != "127" then None else Some(fields)
  }
}

=== FILE: checkers.dfy ===
/** The checker interface (`IpChecker`: `GetName`, `IsIpMalicious`) over its two
    implementations, and the chain the daemon runs them in. */
module Checkers {
  import opened Wrappers
  import opened Addresses
  import opened Answers
  import HoneyPot
  import Dnsbl

  datatype Checker =
    | HoneyPotChecker(hp: HoneyPot.HoneyPotConfig)
    | DnsblChecker(bl: Dnsbl.DnsblConfig)

  function GetName(c: Checker): string
  {
    match c
    case HoneyPotChecker(_) => HoneyPot.NAME
    case DnsblChecker(bl) => Dnsbl.GetName(bl)
  }

  function IsIpMalicious(c: Checker, ip: string, resolve: Resolver): (e: Evaluation)
    requires Indexable(ip)
  {
    match c
    case HoneyPotChecker(hp) => HoneyPot.IsIpMalicious(hp, ip, resolve)
    case DnsblChecker(bl) => Dnsbl.IsIpMalicious(bl, ip, resolve)
  }

  /** Every checker has a non-empty name, so the empty name can stand for "no checker
      matched". */
  lemma NameNonEmpty(c: Checker)
    ensures GetName(c) != ""
  {
    if c.DnsblChecker? {
      assert Dnsbl.GetName(c.bl)[0] == 'D';
    }
  }

  /** The http:BL checker's name differs from every blocklist checker's. */
  lemma NamesDistinct(hp: HoneyPot.HoneyPotConfig, bl: Dnsbl.DnsblConfig)
    ensures GetName(HoneyPotChecker(hp)) != GetName(DnsblChecker(bl))
  {
    assert HoneyPot.NAME[0] == 'p';
    assert Dnsbl.GetName(bl)[0] == 'D';
  }

  /** No checker calls the resolver for, or flags, an address without a dot. */
  lemma UndottedNeverChecked(c: Checker, ip: string, resolve: Resolver)
    requires '.' !in ip
    ensures IsIpMalicious(c, ip, resolve) == Evaluation(None, Unsupported)
  {
  }

  /** `initializeCheckers`: the http:BL checker first when it is enabled, then one
      blocklist checker per configured blocklist, in configuration order. */
  function InitializeCheckers(hp: HoneyPot.HoneyPotConfig, dnsbls: seq<Dnsbl.DnsblConfig>): (chain: seq<Checker>)
    ensures |chain| == |dnsbls| + (if hp.enabled then 1 else 0)
    ensures hp.enabled ==> chain[0] == HoneyPotChecker(hp)
    ensures var offset := if hp.enabled then 1 else 0;
      forall i :: 0 <= i < |dnsbls| ==> chain[offset + i] == DnsblChecker(dnsbls[i])
  {
    var lists := seq(|dnsbls|, i requires 0 <= i < |dnsbls| => DnsblChecker(dnsbls[i]));
    if hp.enabled then [HoneyPotChecker(hp)] + lists else lists
  }

  /** The outcome of running a chain: the evaluations made, in order, and the Go `dnsbl`
      variable — the name of the checker that matched, or "" when none did. */
  datatype ChainRun = ChainRun(trace: seq<Evaluation>, dnsbl: string)

  predicate AnyMalicious(chain: seq<Checker>, ip: string, resolve: Resolver)
    requires Indexable(ip)
  {
    exists i :: 0 <= i < |chain| && Malicious(IsIpMalicious(chain[i], ip, resolve))
  }

  /** What a run of `chain` on `ip` must look like: it consults a prefix of the chain in
      order, every consulted checker but the last found nothing, and the run names the last
      consulted checker exactly when that one matched, which happens exactly when some
      checker of the chain matches; otherwise it consulted the whole chain. */
  predicate IsRunOf(chain: seq<Checker>, ip: string, resolve: Resolver, r: ChainRun)
    requires Indexable(ip)
  {
    && |r.trace| <= |chain|
    && (forall i :: 0 <= i < |r.trace| ==> r.trace[i] == IsIpMalicious(chain[i], ip, resolve))
    && (forall i :: 0 <= i < |r.trace| - 1 ==> !Malicious(r.trace[i]))
    && (r.dnsbl != "" <==> AnyMalicious(chain, ip, resolve))
    && (r.dnsbl != "" ==>
         |r.trace| > 0 && Malicious(r.trace[|r.trace| - 1]) && r.dnsbl == GetName(chain[|r.trace| - 1]))
    && (r.dnsbl == "" ==> |r.trace| == |chain|)
  }

  /** The checker loop of `addIpToTable`: checkers run in chain order and the first that
      finds the address malicious stops the loop, so later checkers are not consulted. */
  function RunChain(chain: seq<Checker>, ip: string, resolve: Resolver): (r: ChainRun)
    requires Indexable(ip)
    ensures IsRunOf(chain, ip, resolve, r)
  {
    if |chain| == 0 then ChainRun([], "")
    else
      var e := IsIpMalicious(chain[0], ip, resolve);
      if Malicious(e) then
        NameNonEmpty(chain[0]);
        ChainRun([e], GetName(chain[0]))
      else
        var rest := RunChain(chain[1..], ip, resolve);
        var r := ChainRun([e] + rest.trace, rest.dnsbl);
        RunExtends(chain, ip, resolve, rest);
        r
  }

  /** A run of the tail behind a first checker that does not match is a run of the chain. */
  lemma RunExtends(chain: seq<Checker>, ip: string, resolve: Resolver, rest: ChainRun)
    requires Indexable(ip)
    requires |chain| > 0 && !Malicious(IsIpMalicious(chain[0], ip, resolve))
    requires IsRunOf(chain[1..], ip, resolve, rest)
    ensures IsRunOf(chain, ip, resolve, ChainRun([IsIpMalicious(chain[0], ip, resolve)] + rest.trace, rest.dnsbl))
  {
    var e := IsIpMalicious(chain[0], ip, resolve);
    var r := ChainRun([e] + rest.trace, rest.dnsbl);
    AnyMaliciousTail(chain, ip, resolve);
    forall i | 0 <= i < |r.trace|
      ensures r.trace[i] == IsIpMalicious(chain[i], ip, resolve)
      ensures i < |r.trace| - 1 ==> !Malicious(r.trace[i])
    {
      if i > 0 {
        assert r.trace[i] == rest.trace[i - 1];
        assert chain[1..][i - 1] == chain[i];
      }
    }
    if r.dnsbl != "" {
      assert r.trace[|r.trace| - 1] == rest.trace[|rest.trace| - 1];
      assert chain[1..][|rest.trace| - 1] == chain[|r.trace| - 1];
    }
  }

  /** Past a checker that does not match, some checker matches iff one of the rest does. */
  lemma AnyMaliciousTail(chain: seq<Checker>, ip: string, resolve: Resolver)
    requires Indexable(ip)
    requires |chain| > 0 && !Malicious(IsIpMalicious(chain[0], ip, resolve))
    ensures AnyMalicious(chain, ip, resolve) <==> AnyMalicious(chain[1..], ip, resolve)
  {
    if AnyMalicious(chain, ip, resolve) {
      var i :| 0 <= i < |chain| && Malicious(IsIpMalicious(chain[i], ip, resolve));
      assert i > 0 && chain[1..][i - 1] == chain[i];
    }
    if AnyMalicious(chain[1..], ip, resolve) {
      var i :| 0 <= i < |chain| - 1 && Malicious(IsIpMalicious(chain[1..][i], ip, resolve));
      assert chain[1..][i] == chain[i + 1];
    }
  }

  /** An address without a dot is legit for every chain and causes no lookup at all. */
  lemma UndottedChainLegit(chain: seq<Checker>, ip: string, resolve: Resolver)
    requires '.' !in ip
    ensures RunChain(chain, ip, resolve).dnsbl == ""
    ensures forall e :: e in RunChain(chain, ip, resolve).trace ==> e.query.None?
  {
    var r := RunChain(chain, ip, resolve);
    forall e | e in r.trace ensures e.query.None? {
      var i :| 0 <= i < |r.trace| && r.trace[i] == e;
      UndottedNeverChecked(chain[i], ip, resolve);
    }
    forall i | 0 <= i < |chain| ensures !Malicious(IsIpMalicious(chain[i], ip, resolve)) {
      UndottedNeverChecked(chain[i], ip, resolve);
    }
  }
}

=== FILE: daemon.dfy ===
/** The per-address orchestration of riversistd/riversistd.go (`processIp`,
    `addIpToTable`) and the prune schedule `Main` sets up. Each goroutine's work is one
    atomic step, with the clock reading passed in as `now`. */
module Daemon {
  import opened Wrappers
  import opened Text
  import opened GoInt
  import opened Addresses
  import opened Answers
  import opened Checkers
  import opened Settings
  import opened Store
  import opened Dispatch
  import Dnsbl

  /** What `processIp` reads besides the store: the checker chain and the `[Riversist]`
      section of the configuration. */
  datatype Context = Context(chain: seq<Checker>, settings: RiversistSection)

  predicate ValidContext(ctx: Context)
  {
    PlainTemplate(ctx.settings.legitIpCmd) && PlainTemplate(ctx.settings.maliciousIpCmd)
  }

  /** The context `Main` builds: the configuration's chain and its `[Riversist]` section.
      The blocklists come as a separate list because the configuration type has no field
      for them. */
  function NewContext(cfg: Config, dnsbls: seq<Dnsbl.DnsblConfig>): (ctx: Context)
    ensures ctx.settings == cfg.riversist
    ensures ctx.chain == InitializeCheckers(cfg.projectHoneyPot, dnsbls)
  {
    Context(InitializeCheckers(cfg.projectHoneyPot, dnsbls), cfg.riversist)
  }

  /** Started without a configuration file, the daemon's chain is the http:BL checker alone,
      with an empty access key, so every address is looked up under a name that starts
      with a bare dot. */
  lemma DefaultContextQueriesWithoutKey(ip: IPv4, resolve: Resolver)
    ensures var ctx := NewContext(Defaults, []);
      && ctx.chain == [HoneyPotChecker(HoneyPot.HoneyPotConfig(true, "", 14, 25))]
      && var a := FormatIPv4(ip);
         Indexable(a)
         && Checkers.IsIpMalicious(ctx.chain[0], a, resolve).query
            == Some("." + ReversedOctets(a) + "." + HoneyPot.ZONE)
  {
    var hp := HoneyPot.HoneyPotConfig(true, "", 14, 25);
    assert NewContext(Defaults, []).chain == [HoneyPotChecker(hp)] by {
      DefaultValues();
    }
    var a := FormatIPv4(ip);
    assert Indexable(a) && '.' in a;
    assert Checkers.IsIpMalicious(HoneyPotChecker(hp), a, resolve).query == Some(HoneyPot.QueryName(hp, a));
    assert HoneyPot.QueryName(hp, a) == "." + ReversedOctets(a) + "." + HoneyPot.ZONE by {
      assert "" + "." == ".";
    }
  }

  /** `addIpToTable`: run the chain, then choose and build the command. The malicious
      command is chosen exactly when some checker of the chain flags the address. */
  function AddIpToTable(ctx: Context, ip: string, resolve: Resolver): (r: (ChainRun, Action))
    requires ValidContext(ctx) && Indexable(ip)
    ensures IsRunOf(ctx.chain, ip, resolve, r.0)
    ensures var template := CommandTemplate(ctx.settings, AnyMalicious(ctx.chain, ip, resolve));
      && (r.1 == NoCommand <==> template == "")
      && (r.1.Exec? ==> |r.1.argv| >= 1 && Join(r.1.argv, ' ') == Sprintf(template, ip))
      && (r.1.Exec? ==> forall i :: 0 <= i < |r.1.argv| ==> ' ' !in r.1.argv[i])
  {
    var run := RunChain(ctx.chain, ip, resolve);
    (run, ActionFor(ctx.settings, ip, run.dnsbl != ""))
  }

  /** What one `processIp` call did. */
  datatype Outcome = Skipped(reason: Skip) | Evaluated(run: ChainRun, action: Action)

  /** The DNS names an outcome looked up. */
  function Queries(o: Outcome): seq<string>
  {
    if o.Skipped? then []
    else Lookups(o.run.trace)
  }

  function Lookups(trace: seq<Evaluation>): seq<string>
  {
    if |trace| == 0 then []
    else (if trace[0].query.Some? then [trace[0].query.value] else []) + Lookups(trace[1..])
  }

  /** The check-and-admit half of `processIp`: a known address is skipped; an unknown one
      enters the in-flight map stamped with the start time. */
  function Begin(st: Store, ip: string, now: Int64): (r: (Store, Option<Skip>))
    ensures r.1 == Check(st, ip)
    ensures r.1.Some? ==> r.0 == st
    ensures r.1.None? ==> r.0 == Admit(st, ip, now)
  {
    match Check(st, ip)
    case Some(reason) => (st, Some(reason))
    case None => (Admit(st, ip, now), None)
  }

  /** `processIp` run alone: an own, evaluated or in-flight address (checked in that order)
      changes nothing and looks nothing up; any other address is evaluated, and afterwards
      is recorded as evaluated at its start time and is no longer in flight. Only an address
      that reaches the checkers must have an indexable dotted form. */
  function ProcessIp(ctx: Context, st: Store, ip: string, now: Int64, resolve: Resolver): (r: (Store, Outcome))
    requires ValidContext(ctx) && (Check(st, ip).Some? || Indexable(ip))
    ensures Check(st, ip).Some? ==> r.0 == st && r.1 == Skipped(Check(st, ip).value)
    ensures Check(st, ip).None? ==>
      && r.0 == Store(st.own, st.processing, st.processed[ip := now])
      && r.1.Evaluated?
      && (r.1.run, r.1.action) == AddIpToTable(ctx, ip, resolve)
  {
    var (admitted, skip) := Begin(st, ip, now);
    if skip.Some? then (st, Skipped(skip.value))
    else
      var (run, action) := AddIpToTable(ctx, ip, resolve);
      var done := Complete(admitted, ip, now);
      assert done.processing == st.processing;
      (done, Evaluated(run, action))
  }

  /** While evaluated, a fresh address is in flight with its start time; whatever prunes
      run before completion, completion records it as evaluated at that start time and
      leaves it out of the in-flight map. */
  lemma FreshAddressLifecycle(st: Store, ip: string, now: Int64, pruneNow: Int64, threshold: UInt64)
    requires Check(st, ip).None?
    ensures var mid := Begin(st, ip, now).0;
      && ip in mid.processing && mid.processing[ip] == now
      && var done := Complete(PruneProcessing(mid, pruneNow, threshold), ip, now);
         ip in done.processed && done.processed[ip] == now && ip !in done.processing
  {
  }

  /** A second trigger of an address right after the first does nothing at all. */
  lemma RetriggerIsNoOp(ctx: Context, st: Store, ip: string, now: Int64, later: Int64, resolve: Resolver)
    requires ValidContext(ctx) && Indexable(ip)
    ensures var st' := ProcessIp(ctx, st, ip, now, resolve).0;
      ProcessIp(ctx, st', ip, later, resolve).0 == st' &&
      ProcessIp(ctx, st', ip, later, resolve).1.Skipped? &&
      Queries(ProcessIp(ctx, st', ip, later, resolve).1) == []
  {
  }

  /** An own address is never evaluated: no lookups, no command, no state change. */
  lemma OwnAddressSkipped(ctx: Context, st: Store, ip: string, now: Int64, resolve: Resolver)
    requires ValidContext(ctx) && Indexable(ip) && ip in st.own
    ensures ProcessIp(ctx, st, ip, now, resolve) == (st, Skipped(OwnIp))
  {
  }

  /** The in-flight map's prune parameters: every 60 seconds, threshold 60 seconds. */
  const PROCESSING_PRUNE_INTERVAL: nat := 60
  const PROCESSING_PRUNE_THRESHOLD: nat := 60

  datatype MapName = ProcessingIps | ProcessedIps

  /** A periodic prune: every `interval` seconds, entries older than `threshold` seconds go. */
  datatype PruneTask = PruneTask(target: MapName, interval: nat, threshold: UInt64)

  /** The prune tasks `Main` starts, as written: the evaluated-map task receives
      `Auto_Expiry_Time` as its interval and `Prune_Interval` as its threshold. */
  function PruneTasks(cfg: RiversistSection): (tasks: seq<PruneTask>)
    ensures |tasks| >= 1 && tasks[0] == PruneTask(ProcessingIps, 60, 60)
    ensures forall i :: 0 <= i < |tasks| ==> tasks[i].interval > 0
    ensures |tasks| == 2 <==> cfg.autoExpiryTime != 0
    ensures |tasks| == 2 ==>
      && tasks[1].target == ProcessedIps
      && tasks[1].interval == cfg.autoExpiryTime
      && tasks[1].threshold == cfg.pruneInterval
  {
    [PruneTask(ProcessingIps, PROCESSING_PRUNE_INTERVAL, PROCESSING_PRUNE_THRESHOLD)] +
    (if cfg.autoExpiryTime != 0 then [PruneTask(ProcessedIps, cfg.autoExpiryTime, cfg.pruneInterval)] else [])
  }

  /** With the default settings the as-written evaluated-map task drops an entry only 1801
      seconds old, far younger than the 86400-second expiry time. */
  lemma PruneTasksExpireTooEarly(st: Store, ip: string, now: Int64)
    requires 0 <= now && ip in st.processed && st.processed[ip] == now - 1801
    ensures var task := PruneTasks(Defaults.riversist)[1];
      && task.target == ProcessedIps
      && now - st.processed[ip] < Defaults.riversist.autoExpiryTime
      && ip !in PruneProcessed(st, now, task.threshold).processed
  {
    DefaultValues();
  }

  /** The prune tasks with the evaluated-map task as evidently intended: every
      `Prune_Interval` seconds, drop entries older than `Auto_Expiry_Time` seconds. A zero
      `Prune_Interval`, which would make the ticker panic, disables the task. */
  function IntendedPruneTasks(cfg: RiversistSection): (tasks: seq<PruneTask>)
    ensures |tasks| >= 1 && tasks[0] == PruneTask(ProcessingIps, 60, 60)
    ensures forall i :: 0 <= i < |tasks| ==> tasks[i].interval > 0
    ensures |tasks| == 2 <==> cfg.autoExpiryTime != 0 && cfg.pruneInterval != 0
    ensures |tasks| == 2 ==>
      tasks[1].target == ProcessedIps && tasks[1].interval == cfg.pruneInterval &&
      tasks[1].threshold == cfg.autoExpiryTime
  {
    [PruneTask(ProcessingIps, PROCESSING_PRUNE_INTERVAL, PROCESSING_PRUNE_THRESHOLD)] +
    (if cfg.autoExpiryTime != 0 && cfg.pruneInterval != 0
     then [PruneTask(ProcessedIps, cfg.pruneInterval, cfg.autoExpiryTime)] else [])
  }

  /** The intended evaluated-map task keeps exactly the entries at most `Auto_Expiry_Time`
      seconds old, for any non-negative clock reading and expiry time within `int64`. */
  lemma IntendedPruneHonoursExpiry(cfg: RiversistSection, st: Store, now: Int64, ip: string)
    requires cfg.autoExpiryTime != 0 && cfg.pruneInterval != 0 && cfg.autoExpiryTime <= MAX_INT64
    requires 0 <= now && ip in st.processed
    ensures var task := IntendedPruneTasks(cfg)[1];
      ip in PruneProcessed(st, now, task.threshold).processed <==>
        now - st.processed[ip] <= cfg.autoExpiryTime
  {
    var task := IntendedPruneTasks(cfg)[1];
    assert PruneCutoff(now, task.threshold) == now - cfg.autoExpiryTime;
  }
}

=== FILE: dispatch.dfy ===
/** The action side of `addIpToTable` (riversistd/riversistd.go): choosing the command
    template for a verdict, substituting the address with `fmt.Sprintf`, and splitting the
    command line into the program and its arguments. Running the program is left out. */
module Dispatch {
  import opened Text
  import opened Settings

  /** Templates whose every `%` starts one of the directives `%%`, `%s` or `%v`. */
  predicate PlainTemplate(t: string)
    decreases |t|
  {
    if |t| == 0 then true
    else if t[0] != '%' then PlainTemplate(t[1..])
    else |t| >= 2 && (t[1] == '%' || t[1] == 's' || t[1] == 'v') && PlainTemplate(t[2..])
  }

  /** What `fmt` appends for an argument no directive consumed. */
  function Extra(arg: string): string
  {
    "%!(EXTRA string=" + arg + ")"
  }

  /** What `fmt` prints for the directive `%` followed by `verb` when no argument is left. */
  function Missing(verb: char): string
  {
    "%!" + [verb] + "(MISSING)"
  }

  /** `fmt.Sprintf(t, arg)` for a plain template and one string argument, `used` telling
      whether a directive has already consumed the argument: `%%` prints a percent sign, the
      first `%s`/`%v` prints the argument, a later one prints `%!s(MISSING)`, and an argument
      no directive consumed is appended as `%!(EXTRA string=arg)`. */
  function SprintfFrom(t: string, arg: string, used: bool): string
    requires PlainTemplate(t)
    decreases |t|
  {
    if |t| == 0 then (if used then "" else Extra(arg))
    else if t[0] != '%' then [t[0]] + SprintfFrom(t[1..], arg, used)
    else if t[1] == '%' then "%" + SprintfFrom(t[2..], arg, used)
    else if !used then arg + SprintfFrom(t[2..], arg, true)
    else Missing(t[1]) + SprintfFrom(t[2..], arg, true)
  }

  /** A template without any directive gets the argument appended as an extra argument. */
  function Sprintf(t: string, arg: string): (r: string)
    requires PlainTemplate(t)
    ensures '%' !in t ==> r == t + Extra(arg)
  {
    if '%' !in t then
      SprintfLiteral(t, "", arg, false);
      assert t + "" == t;
      SprintfFrom(t, arg, false)
    else
      SprintfFrom(t, arg, false)
  }

  /** Text without any `%` keeps a template plain. */
  lemma {:induction false} PlainLiteral(p: string, rest: string)
    requires '%' !in p && PlainTemplate(rest)
    ensures PlainTemplate(p + rest)
    decreases |p|
  {
    if |p| > 0 {
      assert (p + rest)[0] == p[0] && (p + rest)[1..] == p[1..] + rest;
      PlainLiteral(p[1..], rest);
    } else {
      assert p + rest == rest;
    }
  }

  /** Text without any `%` is copied through unchanged. */
  lemma {:induction false} SprintfLiteral(p: string, rest: string, arg: string, used: bool)
    requires '%' !in p && PlainTemplate(rest)
    ensures PlainTemplate(p + rest)
    ensures SprintfFrom(p + rest, arg, used) == p + SprintfFrom(rest, arg, used)
    decreases |p|
  {
    PlainLiteral(p, rest);
    if |p| > 0 {
      var t := p + rest;
      assert t[0] == p[0] && t[0] != '%';
      assert t[1..] == p[1..] + rest;
      SprintfLiteral(p[1..], rest, arg, used);
      var out := SprintfFrom(rest, arg, used);
      assert SprintfFrom(t, arg, used) == [p[0]] + (p[1..] + out);
      assert [p[0]] + (p[1..] + out) == p + out by {
        assert [p[0]] + p[1..] == p;
      }
    } else {
      assert p + rest == rest;
    }
  }

  /** A template with a single `%s` and no other `%` has the address put in its place. */
  lemma SprintfSingleVerb(prefix: string, suffix: string, arg: string)
    requires '%' !in prefix && '%' !in suffix
    ensures PlainTemplate(prefix + "%s" + suffix)
    ensures Sprintf(prefix + "%s" + suffix, arg) == prefix + arg + suffix
  {
    var tail := "%s" + suffix;
    SprintfVerbFirst(suffix, arg);
    SprintfLiteral(prefix, tail, arg, false);
    assert prefix + tail == prefix + "%s" + suffix;
  }

  /** A leading `%s` consumes the argument; directive-free text after it is copied. */
  lemma SprintfVerbFirst(suffix: string, arg: string)
    requires '%' !in suffix
    ensures PlainTemplate("%s" + suffix)
    ensures SprintfFrom("%s" + suffix, arg, false) == arg + suffix
  {
    var tail := "%s" + suffix;
    SprintfLiteral(suffix, "", arg, true);
    assert suffix + "" == suffix;
    assert tail[0] == '%' && tail[1] == 's' && tail[2..] == suffix;
  }

  /** `%%` prints one percent sign and consumes nothing, so the argument is still appended. */
  lemma SprintfPercentSign(prefix: string, suffix: string, arg: string)
    requires '%' !in prefix && '%' !in suffix
    ensures var t := prefix + ("%%" + suffix);
      && PlainTemplate(t)
      && Sprintf(t, arg) == prefix + ("%" + (suffix + Extra(arg)))
  {
    var tail := "%%" + suffix;
    assert PlainTemplate(tail) && SprintfFrom(tail, arg, false) == "%" + (suffix + Extra(arg)) by {
      SprintfLiteral(suffix, "", arg, false);
      assert suffix + "" == suffix;
      assert tail[0] == '%' && tail[1] == '%' && tail[2..] == suffix;
    }
    SprintfLiteral(prefix, tail, arg, false);
  }

  /** Of two `%s`/`%v` directives the first takes the argument and the second prints
      `%!s(MISSING)` (or `%!v(MISSING)`). */
  lemma SprintfTwoVerbs(prefix: string, middle: string, suffix: string, arg: string, v1: char, v2: char)
    requires '%' !in prefix && '%' !in middle && '%' !in suffix
    requires (v1 == 's' || v1 == 'v') && (v2 == 's' || v2 == 'v')
    ensures var t := prefix + (['%', v1] + (middle + (['%', v2] + suffix)));
      && PlainTemplate(t)
      && Sprintf(t, arg) == prefix + (arg + (middle + (Missing(v2) + suffix)))
  {
    var rest := middle + (['%', v2] + suffix);
    var t0 := ['%', v1] + rest;
    assert PlainTemplate(rest) && SprintfFrom(rest, arg, true) == middle + (Missing(v2) + suffix) by {
      SprintfMissingFirst(suffix, arg, v2);
      SprintfLiteral(middle, ['%', v2] + suffix, arg, true);
    }
    SprintfVerbTakesArg(rest, arg, v1);
    SprintfLiteral(prefix, t0, arg, false);
  }

  /** A leading `%s`/`%v` prints the argument and leaves it used for the rest. */
  lemma SprintfVerbTakesArg(rest: string, arg: string, v: char)
    requires PlainTemplate(rest) && (v == 's' || v == 'v')
    ensures PlainTemplate(['%', v] + rest)
    ensures SprintfFrom(['%', v] + rest, arg, false) == arg + SprintfFrom(rest, arg, true)
  {
    var t := ['%', v] + rest;
    assert t[0] == '%' && t[1] == v && t[2..] == rest;
  }

  /** A leading `%s`/`%v` with the argument used prints `Missing`; the text after it is copied. */
  lemma SprintfMissingFirst(suffix: string, arg: string, v: char)
    requires '%' !in suffix && (v == 's' || v == 'v')
    ensures PlainTemplate(['%', v] + suffix)
    ensures SprintfFrom(['%', v] + suffix, arg, true) == Missing(v) + suffix
  {
    var t := ['%', v] + suffix;
    SprintfLiteral(suffix, "", arg, true);
    assert suffix + "" == suffix;
    assert t[0] == '%' && t[1] == v && t[2..] == suffix;
  }

  /** What `addIpToTable` does once it has a verdict: nothing when the chosen template is
      empty, otherwise run `argv[0]` with the remaining words as arguments. */
  datatype Action = NoCommand | Exec(argv: seq<string>)

  /** `Malicious_Ip_Cmd` when some checker matched, `Legit_Ip_Cmd` otherwise. */
  function CommandTemplate(cfg: RiversistSection, malicious: bool): string
  {
    if malicious then cfg.maliciousIpCmd else cfg.legitIpCmd
  }

  /** The command line for `ip`: the template with the address substituted, split on single
      spaces. The words are exactly the space-free pieces of the substituted template, and
      there is always a first word to run. */
  function BuildAction(template: string, ip: string): (a: Action)
    requires PlainTemplate(template)
    ensures a == NoCommand <==> template == ""
    ensures a.Exec? ==> |a.argv| >= 1 && Join(a.argv, ' ') == Sprintf(template, ip)
    ensures a.Exec? ==> forall i :: 0 <= i < |a.argv| ==> ' ' !in a.argv[i]
  {
    if template == "" then NoCommand else Exec(Split(Sprintf(template, ip), ' '))
  }

  /** The action for a verdict, with both templates plain. */
  function ActionFor(cfg: RiversistSection, ip: string, malicious: bool): (a: Action)
    requires PlainTemplate(cfg.legitIpCmd) && PlainTemplate(cfg.maliciousIpCmd)
    ensures a == NoCommand <==> CommandTemplate(cfg, malicious) == ""
    ensures a.Exec? ==> Join(a.argv, ' ') == Sprintf(CommandTemplate(cfg, malicious), ip)
    ensures a.Exec? ==> |a.argv| >= 1 && forall i :: 0 <= i < |a.argv| ==> ' ' !in a.argv[i]
  {
    BuildAction(CommandTemplate(cfg, malicious), ip)
  }

  /** Appending ` %s` to a directive-free command line puts the address after a space. */
  lemma SprintfTrailingVerb(cmd: string, ip: string)
    requires '%' !in cmd
    ensures PlainTemplate(cmd + " %s")
    ensures Sprintf(cmd + " %s", ip) == cmd + " " + ip
  {
    var prefix := cmd + " ";
    assert '%' !in prefix by {
      assert forall i :: 0 <= i < |prefix| ==> prefix[i] == (if i < |cmd| then cmd[i] else ' ');
    }
    SprintfSingleVerb(prefix, "", ip);
    assert prefix + "%s" + "" == cmd + " %s";
    assert prefix + ip + "" == cmd + " " + ip;
  }

  /** The usual template `program args... %s` runs `program` with the address as its last
      argument. */
  lemma ActionForTypicalTemplate(words: seq<string>, ip: string)
    requires |words| >= 1
    requires forall i :: 0 <= i < |words| ==> ' ' !in words[i] && '%' !in words[i]
    requires ' ' !in ip
    ensures PlainTemplate(Join(words, ' ') + " %s")
    ensures BuildAction(Join(words, ' ') + " %s", ip) == Exec(words + [ip])
  {
    var cmd := Join(words, ' ');
    JoinNoChar(words, ' ', '%');
    SprintfTrailingVerb(cmd, ip);
    JoinAppend(words, ip, ' ');
    assert cmd + " " + ip == Join(words + [ip], ' ');
    assert forall i :: 0 <= i < |words + [ip]| ==> ' ' !in (words + [ip])[i];
    SplitJoin(words + [ip], ' ');
  }
}

=== FILE: dnsbl.dfy ===
/** The generic DNS blocklist checker (riversistd/ipChecker/dnsbl.go): the last octet of
    a 127.x.y.z answer is the score. */
module Dnsbl {
  import opened Wrappers
  import opened Text
  import opened GoInt
  import opened Addresses
  import opened Answers

  /** One `[Dnsbl]` configuration entry. */
  datatype DnsblConfig = DnsblConfig(host: string, maliciousThreshold: UInt32)

  /** `GetName`: the blocklist's host after the word "Dnsbl". */
  function GetName(cfg: DnsblConfig): (name: string)
    ensures |name| == |cfg.host| + 6 && name[..6] == "Dnsbl " && name[6..] == cfg.host
  {
    "Dnsbl " + cfg.host
  }

  /** The query name: reversed octets, then the blocklist's host. */
  function QueryName(cfg: DnsblConfig, ip: string): string
    requires |Split(ip, '.')| >= 4
  {
    ReversedOctets(ip) + "." + cfg.host
  }

  /** The score field: `strconv.ParseUint(field, 10, 32)` with its error discarded, so a
      syntax error scores 0 and an overlong number scores 2^32 - 1. The conversion to
      `uint32` that follows in the code never changes such a value. */
  function AnswerScore(fields: seq<string>): UInt32
    requires |fields| == 4
  {
    ParseUint(fields[3], MAX_UINT32).value
  }

  /** The verdict on the answer list of a blocklist lookup. Failed lookups and malformed
      answers fail open; otherwise the address is malicious exactly when the score reaches
      the threshold (inclusive). */
  function Judge(cfg: DnsblConfig, answers: seq<string>): (f: Finding)
    ensures |answers| == 0 <==> f == NoResult
    ensures |answers| > 0 ==> (AnswerFields(answers[0]).None? <==> f == InvalidReturn(answers[0]))
    ensures !f.Stale? && !f.Unsupported?
    ensures f.Scored? ==>
      && |answers| > 0 && AnswerFields(answers[0]).Some?
      && f.score == AnswerScore(AnswerFields(answers[0]).value)
      && f.threshold == cfg.maliciousThreshold
      && (f.malicious <==> f.score >= cfg.maliciousThreshold)
    ensures |answers| > 0 && AnswerFields(answers[0]).Some? ==> f.Scored? && f.answer == answers[0]
  {
    if |answers| == 0 then NoResult
    else match AnswerFields(answers[0])
      case None => InvalidReturn(answers[0])
      case Some(fields) =>
        var score := AnswerScore(fields);
        Scored(score, cfg.maliciousThreshold, score >= cfg.maliciousThreshold, answers[0])
  }

  /** `IsIpMalicious`: an address without a dot is never looked up and never malicious;
      any other address is judged on the answer to its blocklist query. */
  function IsIpMalicious(cfg: DnsblConfig, ip: string, resolve: Resolver): (e: Evaluation)
    requires Indexable(ip)
    ensures '.' !in ip ==> e == Evaluation(None, Unsupported)
    ensures '.' in ip ==>
      e.query == Some(QueryName(cfg, ip)) && e.finding == Judge(cfg, resolve(QueryName(cfg, ip)))
  {
    if IndexOf(ip, '.') < 0 then Evaluation(None, Unsupported)
    else
      var q := QueryName(cfg, ip);
      Evaluation(Some(q), Judge(cfg, resolve(q)))
  }

  /** For the address a.b.c.d the query is `d.c.b.a.` followed by the host. */
  lemma QueryNameOfAddress(cfg: DnsblConfig, ip: IPv4)
    ensures QueryName(cfg, FormatIPv4(ip)) == FormatIPv4([ip[3], ip[2], ip[1], ip[0]]) + "." + cfg.host
  {
    ReversedFormat(ip);
  }

  /** The verdict on a well-formed answer 127.x.y.z: scored z, malicious iff z reaches the
      threshold. */
  lemma JudgeAddressAnswer(cfg: DnsblConfig, x: Byte, y: Byte, z: Byte)
    ensures var answer := FormatIPv4([127, x, y, z]);
      Judge(cfg, [answer]) == Scored(z, cfg.maliciousThreshold, z >= cfg.maliciousThreshold, answer)
  {
    var ip: IPv4 := [127, x, y, z];
    assert Decimal(127) == "127" by {
      assert Decimal(12) == "12";
    }
    assert AnswerFields(FormatIPv4(ip)).value == OctetTexts(ip);
    ParseUintDecimal(z, MAX_UINT32);
  }

  /** The threshold is inclusive: with threshold 10 an answer ending in 10 is malicious and
      one ending in 9 is legit. */
  lemma ThresholdBoundary(host: string, x: Byte, y: Byte)
    ensures var cfg := DnsblConfig(host, 10);
      && Malicious(Evaluation(None, Judge(cfg, [FormatIPv4([127, x, y, 10])])))
      && !Malicious(Evaluation(None, Judge(cfg, [FormatIPv4([127, x, y, 9])])))
  {
    JudgeAddressAnswer(DnsblConfig(host, 10), x, y, 10);
    JudgeAddressAnswer(DnsblConfig(host, 10), x, y, 9);
  }

  /** An unparsable score field scores 0, so it is malicious exactly when the threshold is 0. */
  lemma UnparsableScore(cfg: DnsblConfig, answers: seq<string>)
    requires |answers| > 0 && AnswerFields(answers[0]).Some?
    requires var f := AnswerFields(answers[0]).value[3]; |f| == 0 || !IsDigit(f[0])
    ensures Judge(cfg, answers).Scored? && Judge(cfg, answers).score == 0
    ensures Judge(cfg, answers).malicious <==> cfg.maliciousThreshold == 0
  {
  }

  /** With threshold 0 every well-formed answer is malicious. */
  lemma ZeroThresholdFlagsEverything(cfg: DnsblConfig, answers: seq<string>)
    requires cfg.maliciousThreshold == 0
    requires |answers| > 0 && AnswerFields(answers[0]).Some?
    ensures Malicious(Evaluation(None, Judge(cfg, answers)))
  {
  }
}

=== FILE: goint.dfy ===
/** Go's fixed-width integers and the `strconv` conversions the checkers use.
    Dafny integers are unbounded, so every wrap-around, clamp and truncation is explicit. */
module GoInt {

  const TWO_64: int := 0x1_0000_0000_0000_0000
  const MIN_INT64: int := -0x8000_0000_0000_0000
  const MAX_INT64: int := 0x7fff_ffff_ffff_ffff
  const MAX_UINT32: int := 0xffff_ffff
  const MAX_UINT64: int := 0xffff_ffff_ffff_ffff

  /** Go's `int` and `int64` on a 64-bit platform. */
  type Int64 = x: int | MIN_INT64 <= x <= MAX_INT64
  /** Go's `uint32`. */
  type UInt32 = x: int | 0 <= x <= MAX_UINT32
  /** Go's `uint` and `uint64` on a 64-bit platform. */
  type UInt64 = x: int | 0 <= x <= MAX_UINT64

  /** Two's-complement wrap-around of a mathematical integer into `int64`. */
  function Wrap64(x: int): (r: Int64)
    ensures (x - r) % TWO_64 == 0
    ensures MIN_INT64 <= x <= MAX_INT64 ==> r == x
  {
    (x - MIN_INT64) % TWO_64 + MIN_INT64
  }

  /** Values that differ by a multiple of 2^64 wrap to the same `int64`. */
  lemma WrapCongruent(a: int, b: int, k: int)
    requires a == b + k * TWO_64
    ensures Wrap64(a) == Wrap64(b)
  {
  }

  /** Wrapping a factor before multiplying gives the same `int64` as wrapping the exact product. */
  lemma WrapMul(x: int, t: int)
    ensures Wrap64(Wrap64(x) * t) == Wrap64(x * t)
  {
    var k := (Wrap64(x) - x) / TWO_64;
    assert Wrap64(x) == x + k * TWO_64;
    assert Wrap64(x) * t == x * t + (k * t) * TWO_64 by {
      assert (x + k * TWO_64) * t == x * t + (k * t) * TWO_64;
    }
    WrapCongruent(Wrap64(x) * t, x * t, k * t);
  }

  function Abs(x: int): nat
  {
    if x < 0 then -x else x
  }

  /** Go's `/` on integers: the quotient truncated toward zero, so the remainder
      takes the sign of the dividend. */
  function TruncDiv(a: int, b: int): (q: int)
    requires b != 0
    ensures Abs(a - q * b) < Abs(b)
    ensures a - q * b == 0 || (a - q * b < 0 <==> a < 0)
  {
    TruncQuotient(a, b);
    var m := Abs(a) / Abs(b);
    if (a < 0) == (b < 0) then m else -m
  }

  /** The quotient of magnitudes, signed, leaves a remainder smaller than the divisor and
      signed like the dividend. */
  lemma TruncQuotient(a: int, b: int)
    requires b != 0
    ensures var m := Abs(a) / Abs(b);
      var q := if (a < 0) == (b < 0) then m else -m;
      Abs(a - q * b) < Abs(b) && (a - q * b == 0 || (a - q * b < 0 <==> a < 0))
  {
    var m := Abs(a) / Abs(b);
    var r := Abs(a) % Abs(b);
    EuclideanParts(Abs(a), Abs(b));
    var q := if (a < 0) == (b < 0) then m else -m;
    TruncRemainder(a, b, m, r, q);
  }

  lemma EuclideanParts(x: nat, y: nat)
    requires y > 0
    ensures x == (x / y) * y + x % y && 0 <= x % y < y
  {
  }

  /** With |a| = m|b| + r, the quotient ±m leaves the remainder ±r, signed like `a`. */
  lemma TruncRemainder(a: int, b: int, m: int, r: int, q: int)
    requires b != 0 && Abs(a) == m * Abs(b) + r && 0 <= r < Abs(b)
    requires q == if (a < 0) == (b < 0) then m else -m
    ensures a - q * b == (if a < 0 then -r else r)
  {
    if b < 0 {
      assert m * Abs(b) == -(m * b);
    }
    if q == -m {
      assert q * b == -(m * b);
    }
  }

  predicate IsDigit(c: char)
  {
    '0' <= c <= '9'
  }

  predicate AllDigits(s: string)
  {
    forall i :: 0 <= i < |s| ==> IsDigit(s[i])
  }

  function DigitValue(c: char): nat
    requires IsDigit(c)
  {
    c as int - '0' as int
  }

  function DigitChar(d: nat): (c: char)
    requires d < 10
    ensures IsDigit(c) && DigitValue(c) == d
  {
    ('0' as int + d) as char
  }

  /** The number a string of decimal digits denotes. */
  function DigitsValue(s: string): nat
    requires AllDigits(s)
  {
    if |s| == 0 then 0 else DigitsValue(s[..|s| - 1]) * 10 + DigitValue(s[|s| - 1])
  }

  /** `strconv.Itoa` on a non-negative number, which is also how `net.IP.String`
      prints each octet: decimal digits without leading zeros. */
  function Decimal(n: nat): (s: string)
    ensures |s| >= 1 && AllDigits(s)
    ensures DigitsValue(s) == n
    ensures s[0] == '0' ==> n == 0 && s == "0"
  {
    if n < 10 then [DigitChar(n)]
    else
      var s := Decimal(n / 10) + [DigitChar(n % 10)];
      assert s[..|s| - 1] == Decimal(n / 10);
      s
  }

  /** The error a `strconv` parse reports alongside its value. */
  datatype NumError = NoError | SyntaxError | RangeError

  datatype Parsed = Parsed(value: int, err: NumError)

  /** `strconv.ParseUint(s, 10, bitSize)` where `maxVal` is 2^bitSize - 1. A character
      that is not a decimal digit is a syntax error with value 0; a prefix whose value
      exceeds `maxVal` is a range error with value `maxVal`, whichever comes first. */
  function ParseUint(s: string, maxVal: nat): (r: Parsed)
    ensures 0 <= r.value <= maxVal
    ensures r.err == SyntaxError ==> r.value == 0
    ensures r.err == RangeError ==> r.value == maxVal
    ensures |s| == 0 || !IsDigit(s[0]) ==> r == Parsed(0, SyntaxError)
    ensures |s| >= 1 && AllDigits(s) ==>
      r == if DigitsValue(s) <= maxVal then Parsed(DigitsValue(s), NoError) else Parsed(maxVal, RangeError)
    ensures r.err == NoError ==> |s| >= 1 && AllDigits(s) && r.value == DigitsValue(s)
    ensures r.err == RangeError ==> exists j :: 1 <= j <= |s| && AllDigits(s[..j]) && DigitsValue(s[..j]) > maxVal
    ensures r.err == SyntaxError ==> forall j :: 1 <= j <= |s| && AllDigits(s[..j]) ==> DigitsValue(s[..j]) <= maxVal
  {
    if |s| == 0 then Parsed(0, SyntaxError)
    else
      ScanDigitsAll(s, 0, maxVal);
      assert s[..0] == "" && s[0..] == s;
      ScanDigits(s, 0, maxVal)
  }

  /** The digit loop of `ParseUint`, with the value of the digits consumed so far in `acc`. */
  function ScanDigits(s: string, acc: nat, maxVal: nat): (r: Parsed)
    requires acc <= maxVal
    ensures 0 <= r.value <= maxVal
    ensures r.err == SyntaxError ==> r.value == 0
    ensures r.err == RangeError ==> r.value == maxVal
    decreases |s|
  {
    if |s| == 0 then Parsed(acc, NoError)
    else if !IsDigit(s[0]) then Parsed(0, SyntaxError)
    else if acc * 10 + DigitValue(s[0]) > maxVal then Parsed(maxVal, RangeError)
    else ScanDigits(s[1..], acc * 10 + DigitValue(s[0]), maxVal)
  }

  /** The text after an optional leading sign. */
  function Unsigned(s: string): string
    requires |s| > 0
  {
    if s[0] == '+' || s[0] == '-' then s[1..] else s
  }

  /** `strconv.Atoi` on a 64-bit platform, which behaves as `strconv.ParseInt(s, 10, 64)`:
      an optional sign, then digits; a syntax error gives 0 and an out-of-range value
      is clamped to the nearest `int64`. */
  function Atoi(s: string): (r: Parsed)
    ensures MIN_INT64 <= r.value <= MAX_INT64
    ensures r.err == SyntaxError ==> r.value == 0
    ensures r.err == RangeError ==> r.value == MAX_INT64 || r.value == MIN_INT64
    ensures |s| == 0 || (!IsDigit(s[0]) && s[0] != '+' && s[0] != '-') ==> r == Parsed(0, SyntaxError)
    ensures |s| >= 1 && (s[0] == '+' || s[0] == '-') && (|s| == 1 || !IsDigit(s[1])) ==>
      r == Parsed(0, SyntaxError)
    ensures r.err == RangeError ==> |s| > 0 && (r.value == MIN_INT64 <==> s[0] == '-')
    ensures |s| >= 1 && AllDigits(s) ==>
      r == if DigitsValue(s) <= MAX_INT64 then Parsed(DigitsValue(s), NoError) else Parsed(MAX_INT64, RangeError)
    ensures |s| >= 2 && s[0] == '+' && AllDigits(s[1..]) ==>
      r == if DigitsValue(s[1..]) <= MAX_INT64 then Parsed(DigitsValue(s[1..]), NoError) else Parsed(MAX_INT64, RangeError)
    ensures |s| >= 2 && s[0] == '-' && AllDigits(s[1..]) ==>
      r == if DigitsValue(s[1..]) <= -MIN_INT64 then Parsed(-(DigitsValue(s[1..]) as int), NoError) else Parsed(MIN_INT64, RangeError)
    ensures r.err == NoError ==>
      |s| >= 1 && (AllDigits(s) || (|s| >= 2 && (s[0] == '+' || s[0] == '-') && AllDigits(s[1..])))
    ensures r.err == RangeError ==>
      && |s| >= 2
      && var d := Unsigned(s);
         exists j :: 1 <= j <= |d| && AllDigits(d[..j]) && DigitsValue(d[..j]) > (if s[0] == '-' then -MIN_INT64 else MAX_INT64)
    ensures r.err == RangeError && !AllDigits(Unsigned(s)) ==>
      var d := Unsigned(s);
      exists j :: 1 <= j <= |d| && AllDigits(d[..j]) && DigitsValue(d[..j]) > MAX_UINT64
    ensures |s| > 0 && r.err == SyntaxError ==>
      var d := Unsigned(s);
      forall j :: 1 <= j <= |d| && AllDigits(d[..j]) ==> DigitsValue(d[..j]) <= MAX_UINT64
  {
    if |s| == 0 then Parsed(0, SyntaxError)
    else
      var neg := s[0] == '-';
      var digits := Unsigned(s);
      var u := ParseUint(digits, MAX_UINT64);
      assert digits[..|digits|] == digits;
      if u.err == SyntaxError then Parsed(0, SyntaxError)
      else if !neg && u.value > MAX_INT64 then Parsed(MAX_INT64, RangeError)
      else if neg && u.value > -MIN_INT64 then Parsed(MIN_INT64, RangeError)
      else Parsed(if neg then -u.value else u.value, u.err)
  }

  /** The value of a digit string is at least the value of each of its prefixes. */
  lemma {:induction false} PrefixValueBounded(s: string, j: nat)
    requires AllDigits(s) && j <= |s|
    ensures DigitsValue(s[..j]) <= DigitsValue(s)
    decreases |s|
  {
    if j < |s| {
      var init := s[..|s| - 1];
      assert init[..j] == s[..j];
      PrefixValueBounded(init, j);
    } else {
      assert s[..j] == s;
    }
  }

  /** Scanning from position `i`, with the prefix before it all digits and within `maxVal`:
      success means the whole text was digits and yields their value, and a digit text
      yields its value when it fits and a range error otherwise. */
  lemma {:induction false} ScanDigitsAll(s: string, i: nat, maxVal: nat)
    requires i <= |s| && AllDigits(s[..i]) && DigitsValue(s[..i]) <= maxVal
    ensures var r := ScanDigits(s[i..], DigitsValue(s[..i]), maxVal);
      && (r.err == NoError ==> AllDigits(s) && r.value == DigitsValue(s))
      && (r.err == RangeError ==> exists j :: i < j <= |s| && AllDigits(s[..j]) && DigitsValue(s[..j]) > maxVal)
      && (r.err == SyntaxError ==> forall j :: i < j <= |s| && AllDigits(s[..j]) ==> DigitsValue(s[..j]) <= maxVal)
      && (AllDigits(s) ==>
            r == if DigitsValue(s) <= maxVal then Parsed(DigitsValue(s), NoError) else Parsed(maxVal, RangeError))
    decreases |s| - i
  {
    if i == |s| {
      assert s[..i] == s;
    } else if !IsDigit(s[i]) {
      forall j | i < j <= |s|
        ensures !AllDigits(s[..j])
      {
        assert s[..j][i] == s[i];
      }
    } else {
      var next := s[..i + 1];
      assert AllDigits(next) && DigitsValue(next) == DigitsValue(s[..i]) * 10 + DigitValue(s[i]) by {
        assert next[..i] == s[..i] && next[i] == s[i];
      }
      var r := ScanDigits(s[i..], DigitsValue(s[..i]), maxVal);
      if DigitsValue(next) <= maxVal {
        assert r == ScanDigits(s[i + 1..], DigitsValue(next), maxVal) by {
          assert s[i..][1..] == s[i + 1..];
        }
        ScanDigitsAll(s, i + 1, maxVal);
      } else {
        assert r == Parsed(maxVal, RangeError);
        assert i < i + 1 <= |s| && AllDigits(s[..i + 1]) && DigitsValue(s[..i + 1]) > maxVal;
        if AllDigits(s) {
          PrefixValueBounded(s, i + 1);
        }
      }
    }
  }

  /** ParseUint inverts Decimal for every value up to `maxVal`. */
  lemma ParseUintDecimal(n: nat, maxVal: nat)
    requires n <= maxVal
    ensures ParseUint(Decimal(n), maxVal) == Parsed(n, NoError)
  {
  }

  /** Atoi inverts Decimal for every non-negative `int64`. */
  lemma AtoiDecimal(n: nat)
    requires n <= MAX_INT64
    ensures Atoi(Decimal(n)) == Parsed(n, NoError)
  {
    var s := Decimal(n);
    assert IsDigit(s[0]);
    ParseUintDecimal(n, MAX_UINT64);
  }

  /** Atoi reads a minus sign in front of a decimal as the negated value. */
  lemma AtoiNegative(n: nat)
    requires n <= -MIN_INT64
    ensures Atoi("-" + Decimal(n)) == Parsed(-(n as int), NoError)
  {
    var s := "-" + Decimal(n);
    assert s[1..] == Decimal(n);
    ParseUintDecimal(n, MAX_UINT64);
  }
}

=== FILE: honeypot.dfy ===
/** The Project Honey Pot http:BL checker (riversistd/ipChecker/projectHoneyPot.go).
    An http:BL answer 127.s.t.k says the address was last active s days ago, has threat
    score t and visitor type k. */
module HoneyPot {
  import opened Wrappers
  import opened Text
  import opened GoInt
  import opened Addresses
  import opened Answers

  /** The `[ProjectHoneyPot]` configuration section. */
  datatype HoneyPotConfig = HoneyPotConfig(enabled: bool, apiKey: string, stalePeriod: Int64, maxScore: Int64)

  /** The checker's name as `GetName` reports it. */
  const NAME: string := "projectHoneyPot"

  /** The http:BL zone every query name ends in. */
  const ZONE: string := "dnsbl.httpbl.org"

  /** The http:BL query name: access key, reversed octets, zone. */
  function QueryName(cfg: HoneyPotConfig, ip: string): string
    requires |Split(ip, '.')| >= 4
  {
    cfg.apiKey + "." + ReversedOctets(ip) + "." + ZONE
  }

  /** The days-since-last-activity field, 0 when it does not parse. */
  function ObservedStale(fields: seq<string>): Int64
    requires |fields| == 4
  {
    Atoi(fields[1]).value
  }

  /** The threat-score field, 0 when it does not parse. */
  function ObservedThreat(fields: seq<string>): Int64
    requires |fields| == 4
  {
    Atoi(fields[2]).value
  }

  /** The observed stale period with 0 replaced by 1, so that scoring never divides by zero. */
  function EffectiveStale(observed: Int64): (r: Int64)
    ensures r != 0
    ensures observed != 0 ==> r == observed
    ensures observed == 0 ==> r == 1
  {
    if observed == 0 then 1 else observed
  }

  /** Go's `(conf_stale_period / stale_period) * threat_score` on `int`. */
  function Score(conf: Int64, stale: Int64, threat: Int64): (r: Int64)
    requires stale != 0
    ensures r == Wrap64(TruncDiv(conf, stale) * threat)
    ensures MIN_INT64 <= TruncDiv(conf, stale) * threat <= MAX_INT64 ==> r == TruncDiv(conf, stale) * threat
  {
    WrapMul(TruncDiv(conf, stale), threat);
    Wrap64(Wrap64(TruncDiv(conf, stale)) * threat)
  }

  /** The verdict on the answer list of an http:BL lookup. Failed lookups and malformed
      answers fail open; an answer staler than the configured period is never malicious;
      otherwise the address is malicious exactly when its score exceeds the maximum. */
  function Judge(cfg: HoneyPotConfig, answers: seq<string>): (f: Finding)
    ensures |answers| == 0 <==> f == NoResult
    ensures |answers| > 0 ==> (AnswerFields(answers[0]).None? <==> f == InvalidReturn(answers[0]))
    ensures f.Stale? || f.Scored? ==>
      |answers| > 0 && AnswerFields(answers[0]).Some? &&
      var fields := AnswerFields(answers[0]).value;
      var stale := EffectiveStale(ObservedStale(fields));
      && f.score == Score(cfg.stalePeriod, stale, ObservedThreat(fields))
      && (f.Stale? <==> stale > cfg.stalePeriod)
    ensures f.Scored? ==> f.threshold == cfg.maxScore && (f.malicious <==> f.score > cfg.maxScore)
    ensures f.Stale? ==>
      |answers| > 0 && AnswerFields(answers[0]).Some?
      && f.stalePeriod == EffectiveStale(ObservedStale(AnswerFields(answers[0]).value))
    ensures |answers| > 0 && AnswerFields(answers[0]).Some? ==>
      (f.Stale? || f.Scored?) && f.answer == answers[0]
  {
    if |answers| == 0 then NoResult
    else match AnswerFields(answers[0])
      case None => InvalidReturn(answers[0])
      case Some(fields) =>
        var stale := EffectiveStale(ObservedStale(fields));
        var score := Score(cfg.stalePeriod, stale, ObservedThreat(fields));
        if stale > cfg.stalePeriod then Stale(score, stale, answers[0])
        else Scored(score, cfg.maxScore, score > cfg.maxScore, answers[0])
  }

  /** `IsIpMalicious`: an address without a dot is never looked up and never malicious;
      any other address is judged on the answer to its http:BL query. */
  function IsIpMalicious(cfg: HoneyPotConfig, ip: string, resolve: Resolver): (e: Evaluation)
    requires Indexable(ip)
    ensures '.' !in ip ==> e == Evaluation(None, Unsupported)
    ensures '.' in ip ==>
      e.query == Some(QueryName(cfg, ip)) && e.finding == Judge(cfg, resolve(QueryName(cfg, ip)))
  {
    if IndexOf(ip, '.') < 0 then Evaluation(None, Unsupported)
    else
      var q := QueryName(cfg, ip);
      Evaluation(Some(q), Judge(cfg, resolve(q)))
  }

  /** For the address a.b.c.d the query is `key.d.c.b.a.dnsbl.httpbl.org`. */
  lemma QueryNameOfAddress(cfg: HoneyPotConfig, ip: IPv4)
    ensures QueryName(cfg, FormatIPv4(ip)) ==
      cfg.apiKey + "." + FormatIPv4([ip[3], ip[2], ip[1], ip[0]]) + ".dnsbl.httpbl.org"
  {
    ReversedFormat(ip);
  }

  /** Without overflow, the Go score is the configured period divided (rounding down) by
      the observed one, times the threat score. */
  lemma ScoreNatural(conf: Int64, stale: Int64, threat: Int64)
    requires 0 <= conf <= MAX_UINT32 && 1 <= stale && 0 <= threat <= 255
    ensures Score(conf, stale, threat) == (conf / stale) * threat
  {
    TruncDivNatural(conf, stale);
    DivBounded(conf, stale);
    WrapProduct(conf / stale, threat);
  }

  /** A quotient within `uint32` times a byte-sized threat score does not wrap. */
  lemma WrapProduct(q: nat, t: nat)
    requires q <= MAX_UINT32 && t <= 255
    ensures Wrap64(Wrap64(q) * t) == q * t
  {
    assert Wrap64(q) == q;
    MulBounded(q, t);
  }

  lemma TruncDivNatural(a: nat, b: nat)
    requires 1 <= b
    ensures TruncDiv(a, b) == a / b
  {
    assert Abs(a) == a && Abs(b) == b;
  }

  lemma DivBounded(a: nat, b: nat)
    requires 1 <= b
    ensures 0 <= a / b <= a
  {
    var q := a / b;
    assert q * b + a % b == a;
    assert q * b <= a;
    MulGrows(q, b);
  }

  lemma MulGrows(q: nat, b: nat)
    requires 1 <= b
    ensures q <= q * b
  {
    assert q * b == q + q * (b - 1);
  }

  lemma MulBounded(q: nat, t: nat)
    requires q <= MAX_UINT32 && t <= 255
    ensures q * t <= MAX_INT64
  {
    assert q * t <= MAX_UINT32 * t;
    assert MAX_UINT32 * t <= MAX_UINT32 * 255;
  }

  /** The verdict on a well-formed answer 127.s.t.k, for a non-negative configured period:
      stale when the observed period (0 read as 1) exceeds the configured one, otherwise
      scored `(period / observed) * t` against the maximum. */
  lemma JudgeAddressAnswer(cfg: HoneyPotConfig, s: Byte, t: Byte, k: Byte)
    requires 0 <= cfg.stalePeriod <= MAX_UINT32
    ensures var answer := FormatIPv4([127, s, t, k]);
      var stale := if s == 0 then 1 else s;
      var score := (cfg.stalePeriod / stale) * t;
      Judge(cfg, [answer]) ==
        if stale > cfg.stalePeriod then Stale(score, stale, answer)
        else Scored(score, cfg.maxScore, score > cfg.maxScore, answer)
  {
    var ip: IPv4 := [127, s, t, k];
    var answer := FormatIPv4(ip);
    assert Decimal(127) == "127" by {
      assert Decimal(12) == "12";
    }
    var fields := AnswerFields(answer).value;
    assert fields == OctetTexts(ip);
    AtoiDecimal(s);
    AtoiDecimal(t);
    ScoreNatural(cfg.stalePeriod, if s == 0 then 1 else s, t);
  }

  /** The worked examples with the default period 14 and maximum 25: 127.7.10.x scores 20
      and is legit, 127.2.50.x scores 350 and is malicious, 127.20.x.y is stale. */
  lemma DefaultScoringExamples(key: string, t: Byte, k: Byte)
    ensures var cfg := HoneyPotConfig(true, key, 14, 25);
      && Judge(cfg, [FormatIPv4([127, 7, 10, k])]) == Scored(20, 25, false, FormatIPv4([127, 7, 10, k]))
      && Judge(cfg, [FormatIPv4([127, 2, 50, k])]) == Scored(350, 25, true, FormatIPv4([127, 2, 50, k]))
      && Judge(cfg, [FormatIPv4([127, 20, t, k])]).Stale?
  {
    var cfg := HoneyPotConfig(true, key, 14, 25);
    JudgeAddressAnswer(cfg, 7, 10, k);
    JudgeAddressAnswer(cfg, 2, 50, k);
    JudgeAddressAnswer(cfg, 20, t, k);
  }

  /** An observed stale period that does not parse reads 0, and so divides as 1. */
  lemma UnparsableStale(fields: seq<string>)
    requires |fields| == 4
    requires var f := fields[1]; |f| == 0 || (!IsDigit(f[0]) && f[0] != '+' && f[0] != '-')
    ensures ObservedStale(fields) == 0 && EffectiveStale(ObservedStale(fields)) == 1
  {
  }

  /** Being stale overrides any score: even a huge threat score is not malicious. */
  lemma StaleNeverMalicious(cfg: HoneyPotConfig, answers: seq<string>)
    requires |answers| > 0 && AnswerFields(answers[0]).Some?
    requires EffectiveStale(ObservedStale(AnswerFields(answers[0]).value)) > cfg.stalePeriod
    ensures !(Judge(cfg, answers).Scored? && Judge(cfg, answers).malicious)
  {
  }
}

=== FILE: net.dfy ===
/** The network side of riversistd/net.go: rebuilding the map of the host's own addresses
    (`setOwnIps`) and what the capture loop of `server` does with each decoded packet.
    Capturing, interface enumeration and the goroutines are left out; the two addresses of a
    packet are processed one after the other. */
module Net {
  import opened Wrappers
  import opened Text
  import opened GoInt
  import opened Addresses
  import opened Answers
  import opened Checkers
  import opened Store
  import opened Dispatch
  import opened Daemon

  /** One `net.Addr` of an interface: an `*net.IPNet` with its IP bytes, or any other kind. */
  datatype Addr = IPNet(ip: seq<Byte>) | OtherAddr

  /** The value every own address is stored with. */
  const OWN_IP_MARK: int := 1337

  /** The own-address key of an interface address: the text of its IPv4 form, if it has one. */
  function OwnKey(a: Addr): (k: Option<string>)
    ensures k.Some? <==> a.IPNet? && To4(a.ip).Some?
    ensures k.Some? ==> k.value == FormatIPv4(To4(a.ip).value)
  {
    match a
    case OtherAddr => None
    case IPNet(ip) =>
      match To4(ip)
      case None => None
      case Some(v4) => Some(FormatIPv4(v4))
  }

  /** The addresses of all interfaces, interface by interface. */
  function Flatten(ifaces: seq<seq<Addr>>): (addrs: seq<Addr>)
    ensures forall a :: a in addrs <==> exists i :: 0 <= i < |ifaces| && a in ifaces[i]
  {
    if |ifaces| == 0 then []
    else
      var rest := Flatten(ifaces[1..]);
      assert forall i :: 1 <= i < |ifaces| ==> ifaces[1..][i - 1] == ifaces[i];
      ifaces[0] + rest
  }

  /** The own-address map built from a list of addresses, in order. */
  function OwnIpMap(addrs: seq<Addr>): (m: IpMap)
    ensures m.Keys == set a | a in addrs && OwnKey(a).Some? :: OwnKey(a).value
    ensures forall k :: k in m ==> m[k] == OWN_IP_MARK
  {
    if |addrs| == 0 then map[]
    else
      var last := addrs[|addrs| - 1];
      var init := addrs[..|addrs| - 1];
      var m := OwnIpMap(init);
      assert addrs == init + [last];
      match OwnKey(last)
      case None => m
      case Some(k) => m[k := OWN_IP_MARK]
  }

  /** `setOwnIps`: the own-address map is emptied and refilled, so afterwards it holds
      exactly the IPv4 addresses of the interfaces, each marked 1337; the other two maps
      are untouched. */
  function SetOwnIps(st: Store, ifaces: seq<seq<Addr>>): (r: Store)
    ensures r.processing == st.processing && r.processed == st.processed
    ensures forall k :: k in r.own <==>
      exists i, j :: 0 <= i < |ifaces| && 0 <= j < |ifaces[i]| && OwnKey(ifaces[i][j]) == Some(k)
    ensures forall k :: k in r.own ==> r.own[k] == OWN_IP_MARK
  {
    var r := st.(own := OwnIpMap(Flatten(ifaces)));
    assert forall k :: k in r.own <==>
      exists i, j :: 0 <= i < |ifaces| && 0 <= j < |ifaces[i]| && OwnKey(ifaces[i][j]) == Some(k) by {
      forall k ensures k in r.own ==>
        exists i, j :: 0 <= i < |ifaces| && 0 <= j < |ifaces[i]| && OwnKey(ifaces[i][j]) == Some(k)
      {
        if k in r.own {
          var a :| a in Flatten(ifaces) && OwnKey(a) == Some(k);
          var i :| 0 <= i < |ifaces| && a in ifaces[i];
          var j :| 0 <= j < |ifaces[i]| && ifaces[i][j] == a;
        }
      }
    }
    r
  }

  /** Every own address is the text of an IPv4 address, which the checkers can index. */
  lemma OwnAddressesIndexable(st: Store, ifaces: seq<seq<Addr>>)
    ensures forall k :: k in SetOwnIps(st, ifaces).own ==> |Split(k, '.')| == 4 && Indexable(k)
  {
    forall k | k in SetOwnIps(st, ifaces).own
      ensures |Split(k, '.')| == 4 && Indexable(k)
    {
      var i, j :| 0 <= i < |ifaces| && 0 <= j < |ifaces[i]| && OwnKey(ifaces[i][j]) == Some(k);
    }
  }

  /** The network layer of a decoded packet: IPv4 with its two addresses, or another kind. */
  datatype NetworkLayer = IPv4Net(src: IPv4, dst: IPv4) | OtherNetwork

  /** The transport layer of a decoded packet. */
  datatype Transport = Tcp | OtherTransport

  /** A decoded packet, with whichever layers it has. */
  datatype Packet = Packet(network: Option<NetworkLayer>, transport: Option<Transport>)

  /** The type assertions of the capture loop that panic, stopping the daemon: a network
      layer that is not IPv4, or a transport layer that is missing or not TCP. */
  datatype PacketPanic = NotIPv4 | NotTcp

  /** The addresses the capture loop hands to `processIp` for a packet: none, with only a
      warning, when the packet has no network layer; otherwise, if both type assertions hold,
      the source and then the destination as text. */
  function PacketTargets(p: Packet): (r: Result<seq<string>, PacketPanic>)
    ensures r.Failure? <==> p.network.Some? && (p.network.value.OtherNetwork? || p.transport != Some(Tcp))
    ensures p.network.None? ==> r == Success([])
    ensures p.network == Some(OtherNetwork) ==> r == Failure(NotIPv4)
    ensures p.network.Some? && p.network.value.IPv4Net? && p.transport != Some(Tcp) ==>
      r == Failure(NotTcp)
    ensures r.Success? && p.network.Some? ==>
      && p.network.value.IPv4Net? && p.transport == Some(Tcp)
      && |r.value| == 2
      && Split(r.value[0], '.') == OctetTexts(p.network.value.src)
      && Split(r.value[1], '.') == OctetTexts(p.network.value.dst)
  {
    match p.network
    case None => Success([])
    case Some(OtherNetwork) => Failure(NotIPv4)
    case Some(IPv4Net(src, dst)) =>
      if p.transport != Some(Tcp) then Failure(NotTcp)
      else Success([FormatIPv4(src), FormatIPv4(dst)])
  }

  /** `processIp` on each address in turn. */
  function ProcessAll(ctx: Context, st: Store, ips: seq<string>, now: Int64, resolve: Resolver): (r: (Store, seq<Outcome>))
    requires ValidContext(ctx)
    requires forall i :: 0 <= i < |ips| ==> Indexable(ips[i])
    ensures |r.1| == |ips|
    ensures |ips| == 0 ==> r.0 == st
    ensures |ips| > 0 ==> r.1[0] == ProcessIp(ctx, st, ips[0], now, resolve).1
    decreases |ips|
  {
    if |ips| == 0 then (st, [])
    else
      var first := ProcessIp(ctx, st, ips[0], now, resolve);
      var rest := ProcessAll(ctx, first.0, ips[1..], now, resolve);
      (rest.0, [first.1] + rest.1)
  }

  /** A formatted IPv4 address has four dot-separated parts. */
  lemma FormattedIndexable(ip: IPv4)
    ensures |Split(FormatIPv4(ip), '.')| == 4 && Indexable(FormatIPv4(ip))
  {
  }

  /** The per-packet step of the capture loop: a panic, or the store and outcomes after
      processing the packet's addresses. A packet without a network layer changes nothing. */
  function OnPacket(ctx: Context, st: Store, p: Packet, now: Int64, resolve: Resolver): (r: Result<(Store, seq<Outcome>), PacketPanic>)
    requires ValidContext(ctx)
    ensures r.Failure? <==> PacketTargets(p).Failure?
    ensures p.network.None? ==> r == Success((st, []))
    ensures r.Success? && p.network.Some? ==> |r.value.1| == 2
  {
    match PacketTargets(p)
    case Failure(e) => Failure(e)
    case Success(ips) =>
      if p.network.Some? then
        FormattedIndexable(p.network.value.src);
        FormattedIndexable(p.network.value.dst);
        Success(ProcessAll(ctx, st, ips, now, resolve))
      else
        Success(ProcessAll(ctx, st, ips, now, resolve))
  }

  /** `ProcessAll` on a one-element list is a single `processIp`. */
  lemma ProcessAllSingle(ctx: Context, st: Store, ip: string, now: Int64, resolve: Resolver)
    requires ValidContext(ctx) && Indexable(ip)
    ensures ProcessAll(ctx, st, [ip], now, resolve) ==
      (ProcessIp(ctx, st, ip, now, resolve).0, [ProcessIp(ctx, st, ip, now, resolve).1])
  {
    var first := ProcessIp(ctx, st, ip, now, resolve);
    assert [ip][1..] == [];
    var rest := ProcessAll(ctx, first.0, [], now, resolve);
    assert rest == (first.0, []);
    var whole := ProcessAll(ctx, st, [ip], now, resolve);
    assert [ip][0] == ip;
    assert whole == (rest.0, [first.1] + rest.1);
    assert [first.1] + rest.1 == [first.1];
  }

  /** The TCP-over-IPv4 packet from `src` to `dst`. */
  function TcpPacket(src: IPv4, dst: IPv4): Packet
  {
    Packet(Some(IPv4Net(src, dst)), Some(Tcp))
  }

  /** `ProcessAll` on two addresses is `processIp` on the first, then on the second. */
  lemma ProcessAllPair(ctx: Context, st: Store, a: string, b: string, now: Int64, resolve: Resolver)
    requires ValidContext(ctx) && Indexable(a) && Indexable(b)
    ensures var first := ProcessIp(ctx, st, a, now, resolve);
      var second := ProcessIp(ctx, first.0, b, now, resolve);
      ProcessAll(ctx, st, [a, b], now, resolve) == (second.0, [first.1, second.1])
  {
    var ips := [a, b];
    var first := ProcessIp(ctx, st, a, now, resolve);
    var second := ProcessIp(ctx, first.0, b, now, resolve);
    ProcessAllSingle(ctx, first.0, b, now, resolve);
    assert ips[0] == a && ips[1..] == [b];
    var rest := ProcessAll(ctx, first.0, [b], now, resolve);
    assert rest == (second.0, [second.1]);
    assert ProcessAll(ctx, st, ips, now, resolve) == (rest.0, [first.1] + rest.1);
    assert [first.1] + rest.1 == [first.1, second.1];
  }

  /** A TCP-over-IPv4 packet triggers `processIp` for its source, then for its destination. */
  lemma PacketProcessesBothEnds(ctx: Context, st: Store, src: IPv4, dst: IPv4, now: Int64, resolve: Resolver)
    requires ValidContext(ctx)
    ensures var a := FormatIPv4(src);
      var b := FormatIPv4(dst);
      var first := ProcessIp(ctx, st, a, now, resolve);
      var second := ProcessIp(ctx, first.0, b, now, resolve);
      OnPacket(ctx, st, TcpPacket(src, dst), now, resolve) == Success((second.0, [first.1, second.1]))
  {
    var a := FormatIPv4(src);
    var b := FormatIPv4(dst);
    FormattedIndexable(src);
    FormattedIndexable(dst);
    assert PacketTargets(TcpPacket(src, dst)) == Success([a, b]);
    ProcessAllPair(ctx, st, a, b, now, resolve);
  }

  /** End to end: a TCP packet from an unknown source that some checker flags runs the
      malicious command with the source substituted, and leaves the source recorded as
      evaluated. */
  lemma MaliciousSourceBlocked(ctx: Context, st: Store, src: IPv4, dst: IPv4, now: Int64, resolve: Resolver)
    requires ValidContext(ctx)
    ensures var a := FormatIPv4(src);
      var r := OnPacket(ctx, st, TcpPacket(src, dst), now, resolve);
      ctx.settings.maliciousIpCmd != "" && Check(st, a).None? && AnyMalicious(ctx.chain, a, resolve) ==>
      && r.Success?
      && r.value.1[0].Evaluated?
      && r.value.1[0].action == Exec(Split(Sprintf(ctx.settings.maliciousIpCmd, a), ' '))
      && a in r.value.0.processed && r.value.0.processed[a] == now
  {
    var a := FormatIPv4(src);
    FormattedIndexable(src);
    FormattedIndexable(dst);
    if ctx.settings.maliciousIpCmd == "" || Check(st, a).Some? || !AnyMalicious(ctx.chain, a, resolve) {
      return;
    }
    PacketProcessesBothEnds(ctx, st, src, dst, now, resolve);
    var first := ProcessIp(ctx, st, a, now, resolve);
    assert (first.1.run, first.1.action) == AddIpToTable(ctx, a, resolve);
    assert first.1.run.dnsbl != "";
    assert a in first.0.processed && first.0.processed[a] == now;
    var b := FormatIPv4(dst);
    var second := ProcessIp(ctx, first.0, b, now, resolve);
    assert Check(first.0, b).Some? ==> second.0 == first.0;
  }

  /** A packet whose source and destination coincide evaluates that address once: the
      second trigger finds it already known. */
  lemma SameEndsEvaluatedOnce(ctx: Context, st: Store, ip: IPv4, now: Int64, resolve: Resolver)
    requires ValidContext(ctx)
    ensures var r := OnPacket(ctx, st, TcpPacket(ip, ip), now, resolve);
      r.Success? && r.value.1[1].Skipped?
  {
    PacketProcessesBothEnds(ctx, st, ip, ip, now, resolve);
    var a := FormatIPv4(ip);
    FormattedIndexable(ip);
    var st1 := ProcessIp(ctx, st, a, now, resolve).0;
    assert Check(st1, a).Some?;
  }
}

=== FILE: settings.dfy ===
/** The daemon's configuration (riversistd/config.go): its defaults and the checks a
    configuration file must pass. */
module Settings {
  import opened Wrappers
  import opened GoInt
  import HoneyPot

  /** The `[Riversist]` configuration section. */
  datatype RiversistSection = RiversistSection(
    interfaceName: string,
    libpcapFilter: string,
    legitIpCmd: string,
    maliciousIpCmd: string,
    autoExpiryTime: UInt64,
    pruneInterval: UInt64)

  datatype Config = Config(riversist: RiversistSection, projectHoneyPot: HoneyPot.HoneyPotConfig)

  /** The zero value the daemon's configuration starts from. */
  const ZeroConfig: Config :=
    Config(RiversistSection("", "", "", "", 0, 0), HoneyPot.HoneyPotConfig(false, "", 0, 0))

  /** `DefaultConfig`: sets the capture interface and filter, the two prune parameters, and
      enables http:BL with period 14 and maximum score 25; the commands and the API key keep
      whatever they held before. */
  function DefaultConfig(cfg: Config): (r: Config)
    ensures r.riversist.legitIpCmd == cfg.riversist.legitIpCmd
    ensures r.riversist.maliciousIpCmd == cfg.riversist.maliciousIpCmd
    ensures r.projectHoneyPot.apiKey == cfg.projectHoneyPot.apiKey
    ensures r.riversist.interfaceName != ""
    ensures r.projectHoneyPot.enabled
  {
    Config(
      cfg.riversist.(
        interfaceName := "eth0",
        libpcapFilter := "tcp and ip",
        autoExpiryTime := 86400,
        pruneInterval := 1800),
      cfg.projectHoneyPot.(enabled := true, stalePeriod := 14, maxScore := 25))
  }

  /** The configuration the daemon runs with when no file is given. */
  const Defaults: Config := DefaultConfig(ZeroConfig)

  /** The fatal errors of `LoadConfig` after a successful parse. */
  datatype ConfigError = EmptyInterface | MissingApiKey

  /** The checks `LoadConfig` makes, in order: the interface must be named, and an enabled
      http:BL checker needs an API key. */
  function ValidateConfig(cfg: Config): (r: Option<ConfigError>)
    ensures r.None? <==>
      cfg.riversist.interfaceName != "" && (!cfg.projectHoneyPot.enabled || cfg.projectHoneyPot.apiKey != "")
    ensures r == Some(EmptyInterface) <==> cfg.riversist.interfaceName == ""
  {
    if cfg.riversist.interfaceName == "" then Some(EmptyInterface)
    else if cfg.projectHoneyPot.enabled && cfg.projectHoneyPot.apiKey == "" then Some(MissingApiKey)
    else None
  }

  /** Startup: defaults first; when a configuration file is given, the parse (`read`,
      overwriting the fields the file sets) runs on the defaults and the result is
      validated. Without a file nothing is validated. */
  function StartupConfig(file: Option<Config -> Config>): (r: Result<Config, ConfigError>)
    ensures file.None? ==> r == Success(Defaults)
    ensures file.Some? ==> match ValidateConfig(file.value(Defaults))
      case None => r == Success(file.value(Defaults))
      case Some(err) => r == Failure(err)
  {
    match file
    case None => Success(Defaults)
    case Some(read) =>
      var cfg := read(Defaults);
      match ValidateConfig(cfg)
      case None => Success(cfg)
      case Some(err) => Failure(err)
  }

  /** The default values. */
  lemma DefaultValues()
    ensures Defaults.riversist == RiversistSection("eth0", "tcp and ip", "", "", 86400, 1800)
    ensures Defaults.projectHoneyPot == HoneyPot.HoneyPotConfig(true, "", 14, 25)
  {
  }

  /** The defaults enable http:BL without an API key, which validation would reject; but
      without a configuration file they are never validated and the daemon starts with them. */
  lemma DefaultsSkipValidation()
    ensures ValidateConfig(Defaults) == Some(MissingApiKey)
    ensures StartupConfig(None) == Success(Defaults)
  {
  }

  /** A file that disables http:BL needs no API key; one that keeps it enabled does. */
  lemma ApiKeyNeededOnlyWhenEnabled(cfg: Config)
    requires cfg.riversist.interfaceName != "" && cfg.projectHoneyPot.apiKey == ""
    ensures ValidateConfig(cfg).None? <==> !cfg.projectHoneyPot.enabled
  {
  }
}

=== FILE: store.dfy ===
/** The evaluation state of riversistd/riversistd.go: three maps from address to Unix
    timestamp — the host's own addresses, the addresses being evaluated, and the addresses
    already evaluated — and the pruning that expires entries. Each operation is one atomic
    step; the locks that make it so in the daemon are not modelled. */
module Store {
  import opened Wrappers
  import opened GoInt

  type IpMap = map<string, int>

  datatype Store = Store(own: IpMap, processing: IpMap, processed: IpMap)

  const Empty: Store := Store(map[], map[], map[])

  /** Why `processIp` leaves an address alone. */
  datatype Skip = OwnIp | AlreadyEvaluated | BeingEvaluated

  /** The membership checks of `processIp`, in the code's order: own addresses, then
      evaluated addresses, then addresses under evaluation. `None` admits the address. */
  function Check(st: Store, ip: string): (r: Option<Skip>)
    ensures r.None? <==> ip !in st.own && ip !in st.processed && ip !in st.processing
    ensures r == Some(OwnIp) <==> ip in st.own
    ensures r == Some(AlreadyEvaluated) <==> ip !in st.own && ip in st.processed
  {
    if ip in st.own then Some(OwnIp)
    else if ip in st.processed then Some(AlreadyEvaluated)
    else if ip in st.processing then Some(BeingEvaluated)
    else None
  }

  /** Admission: the address enters the in-flight map stamped with its start time. */
  function Admit(st: Store, ip: string, start: int): (r: Store)
    ensures r.own == st.own && r.processed == st.processed
    ensures r.processing.Keys == st.processing.Keys + {ip} && r.processing[ip] == start
    ensures forall k :: k in st.processing && k != ip ==> r.processing[k] == st.processing[k]
  {
    st.(processing := st.processing[ip := start])
  }

  /** Completion: under both locks the address is recorded as evaluated, stamped with its
      start time, and dropped from the in-flight map (a no-op if a prune already dropped it). */
  function Complete(st: Store, ip: string, start: int): (r: Store)
    ensures r.own == st.own
    ensures ip in r.processed && r.processed[ip] == start && ip !in r.processing
    ensures r.processed.Keys == st.processed.Keys + {ip}
    ensures forall k :: k in st.processed && k != ip ==> r.processed[k] == st.processed[k]
    ensures forall k :: k != ip ==> (k in r.processing <==> k in st.processing)
    ensures forall k :: k in r.processing ==> r.processing[k] == st.processing[k]
  {
    Store(st.own, st.processing - {ip}, st.processed[ip := start])
  }

  /** `time.Now().Unix() - int64(threshold)` with Go's wrap-around. */
  function PruneCutoff(now: Int64, threshold: UInt64): (cutoff: Int64)
    ensures threshold <= MAX_INT64 && MIN_INT64 <= now - threshold ==> cutoff == now - threshold
  {
    Wrap64(now - Wrap64(threshold))
  }

  /** The entries a prune keeps: those stamped at or after the cutoff. */
  function Kept(m: IpMap, cutoff: int): (r: IpMap)
    ensures forall k :: k in r <==> k in m && m[k] >= cutoff
    ensures forall k :: k in r ==> r[k] == m[k]
  {
    map k | k in m && m[k] >= cutoff :: m[k]
  }

  /** One tick of `pruneIpMap`: delete every entry older than `now - threshold` and count
      the deletions. */
  method PruneIpMap(m: IpMap, now: Int64, threshold: UInt64) returns (kept: IpMap, counter: nat)
    ensures forall k :: k in kept <==> k in m && m[k] >= PruneCutoff(now, threshold)
    ensures forall k :: k in kept ==> kept[k] == m[k]
    ensures counter == |m.Keys - kept.Keys|
    ensures counter + |kept| == |m|
    ensures kept == Kept(m, PruneCutoff(now, threshold))
  {
    var cutoff := PruneCutoff(now, threshold);
    kept := m;
    counter := 0;
    var todo := m.Keys;
    while todo != {}
      invariant todo <= m.Keys
      invariant forall k :: k in kept <==> k in m && (k in todo || m[k] >= cutoff)
      invariant forall k :: k in kept ==> kept[k] == m[k]
      invariant kept.Keys <= m.Keys
      invariant counter == |m.Keys - kept.Keys|
      decreases todo
    {
      var k :| k in todo;
      if m[k] < cutoff {
        assert k in kept;
        assert m.Keys - (kept - {k}).Keys == (m.Keys - kept.Keys) + {k};
        kept := kept - {k};
        counter := counter + 1;
      }
      todo := todo - {k};
    }
    SubsetCardinality(kept.Keys, m.Keys);
  }

  lemma SubsetCardinality(a: set<string>, b: set<string>)
    requires a <= b
    ensures |b - a| + |a| == |b|
  {
    assert b == (b - a) + a;
  }

  /** Pruning the in-flight map, as the daemon does every 60 seconds with threshold 60. */
  function PruneProcessing(st: Store, now: Int64, threshold: UInt64): (r: Store)
    ensures r.own == st.own && r.processed == st.processed
    ensures r.processing == Kept(st.processing, PruneCutoff(now, threshold))
  {
    st.(processing := Kept(st.processing, PruneCutoff(now, threshold)))
  }

  /** Pruning the evaluated map. */
  function PruneProcessed(st: Store, now: Int64, threshold: UInt64): (r: Store)
    ensures r.own == st.own && r.processing == st.processing
    ensures r.processed == Kept(st.processed, PruneCutoff(now, threshold))
  {
    st.(processed := Kept(st.processed, PruneCutoff(now, threshold)))
  }

  /** A second prune with the same cutoff removes nothing more. */
  lemma KeptIdempotent(m: IpMap, cutoff: int)
    ensures Kept(Kept(m, cutoff), cutoff) == Kept(m, cutoff)
  {
  }

  /** An address stuck in the in-flight map for longer than the threshold is dropped by the
      next in-flight prune, after which it is admitted again unless it is an own or an
      evaluated address. */
  lemma StuckAddressReadmitted(st: Store, ip: string, now: Int64, threshold: UInt64)
    requires ip in st.processing && st.processing[ip] < PruneCutoff(now, threshold)
    requires ip !in st.own && ip !in st.processed
    ensures ip !in PruneProcessing(st, now, threshold).processing
    ensures Check(PruneProcessing(st, now, threshold), ip) == None
  {
  }
}

=== FILE: text.dfy ===
/** The parts of Go's `strings` package the daemon relies on, for one-character separators. */
module Text {

  /** Number of occurrences of `c` in `s`. */
  function Count(s: string, c: char): nat
  {
    if |s| == 0 then 0 else (if s[0] == c then 1 else 0) + Count(s[1..], c)
  }

  /** `strings.Index(s, string(c))`: the first position of `c`, or -1 when there is none. */
  function IndexOf(s: string, c: char): (r: int)
    ensures r < 0 <==> c !in s
    ensures r >= 0 ==> r < |s| && s[r] == c && c !in s[..r]
  {
    if |s| == 0 then -1
    else if s[0] == c then 0
    else
      var k := IndexOf(s[1..], c);
      assert s[1..][..if k < 0 then 0 else k] == s[1..if k < 0 then 1 else k + 1];
      if k < 0 then -1 else k + 1
  }

  /** `strings.Join(parts, string(sep))`. */
  function Join(parts: seq<string>, sep: char): string
  {
    if |parts| == 0 then ""
    else if |parts| == 1 then parts[0]
    else parts[0] + [sep] + Join(parts[1..], sep)
  }

  /** `strings.Split(s, string(sep))`: the maximal separator-free pieces between separators.
      Joining the pieces again gives back `s`. */
  function Split(s: string, sep: char): (parts: seq<string>)
    ensures |parts| == Count(s, sep) + 1
    ensures forall i :: 0 <= i < |parts| ==> sep !in parts[i]
    ensures Join(parts, sep) == s
  {
    if |s| == 0 then [""]
    else
      var rest := Split(s[1..], sep);
      if s[0] == sep then
        assert s == [sep] + s[1..];
        [""] + rest
      else
        var parts := [[s[0]] + rest[0]] + rest[1..];
        assert parts[1..] == rest[1..];
        assert s == [s[0]] + s[1..];
        parts
  }

  /** A separator-free string is a single piece. */
  lemma {:induction false} SplitPiece(p: string, sep: char)
    requires sep !in p
    ensures Split(p, sep) == [p]
  {
    if |p| > 0 {
      SplitPiece(p[1..], sep);
      assert [p[0]] + p[1..] == p;
    }
  }

  /** Splitting a piece followed by a separator peels that piece off. */
  lemma {:induction false} SplitPieceThenRest(p: string, sep: char, t: string)
    requires sep !in p
    ensures Split(p + [sep] + t, sep) == [p] + Split(t, sep)
  {
    if |p| == 0 {
      assert p + [sep] + t == [sep] + t;
      assert ([sep] + t)[1..] == t;
    } else {
      SplitPieceThenRest(p[1..], sep, t);
      assert (p + [sep] + t)[1..] == p[1..] + [sep] + t;
      assert [p[0]] + p[1..] == p;
    }
  }

  /** Split inverts Join on separator-free pieces. */
  lemma {:induction false} SplitJoin(parts: seq<string>, sep: char)
    requires |parts| >= 1
    requires forall i :: 0 <= i < |parts| ==> sep !in parts[i]
    ensures Split(Join(parts, sep), sep) == parts
  {
    if |parts| == 1 {
      SplitPiece(parts[0], sep);
    } else {
      SplitJoin(parts[1..], sep);
      SplitPieceThenRest(parts[0], sep, Join(parts[1..], sep));
      assert [parts[0]] + parts[1..] == parts;
    }
  }

  /** Joining pieces that lack a character other than the separator leaves it absent. */
  lemma {:induction false} JoinNoChar(parts: seq<string>, sep: char, c: char)
    requires c != sep
    requires forall i :: 0 <= i < |parts| ==> c !in parts[i]
    ensures c !in Join(parts, sep)
  {
    if |parts| > 1 {
      JoinNoChar(parts[1..], sep, c);
    }
  }

  /** Joining one more piece appends a separator and the piece. */
  lemma {:induction false} JoinAppend(parts: seq<string>, last: string, sep: char)
    requires |parts| >= 1
    ensures Join(parts + [last], sep) == Join(parts, sep) + [sep] + last
  {
    if |parts| == 1 {
      assert (parts + [last])[1..] == [last];
    } else {
      JoinAppend(parts[1..], last, sep);
      assert (parts + [last])[1..] == parts[1..] + [last];
    }
  }
}

=== FILE: wrappers.dfy ===
/** Failure-carrying datatypes shared by the whole model. */
module Wrappers {

  /** An optional value: Go's nil results and missing map entries. */
  datatype Option<+T> = None | Some(value: T)

  /** A value or the error that stopped its computation. */
  datatype Result<+T, +E> = Success(value: T) | Failure(error: E)
}
